=== FILE: README.md ===
# Pris literal decoders, evaluator core and error locator, in Dafny

Pris is a language for designing slides. This project models three sequential pieces of
its implementation and proves properties of them:

- **Literal decoders** (`src/parser.rs`).
  - `unescape_string_literal` turns a quoted literal into its string. It handles `\\`, `\"`, `\n` and `\u` followed by up to six hex digits, and checks each code point against the Unicode scalar values.
  - `unescape_raw_string_literal` strips the `---` markers of a raw literal and removes the closing marker's indentation from every line.
  - Both are imperative loops. Each is a Dafny `method` with the same loop (`StringLiteral.UnescapeStringLiteral`, `RawLiteral.UnescapeRawStringLiteral`), proved equal to a specification function (`Unescaped`, `RawDecoded`). The lemmas are stated about those functions.
- **Evaluator core** (`src/interpreter.rs`).
  - Values (`Val`) and the environment: `Env`, a class whose binding map `put` updates in place.
  - Lookups, the unit conversion of number literals, and blocks evaluated on a copy of the environment, where the first `return` decides the value.
  - Assignments, and the rejection of a `return` outside a block.
  - The methods `EvalExpr`, `EvalBlock`, `EvalStatement` and `EvalAssign` follow the Rust functions. They are proved equal to `Eval`, `Run` and `Exec`, which are functions over binding maps.
- **Error locator** (`report_error` in `src/bin/pris.rs`).
  - Given the input bytes, an error offset and a token length, it finds the line number, the line's start and end offsets, and the `^~~` marker line.
  - The code as written fails on a last line without a newline; see Findings.

Rust panics are modelled as error outcomes:
- `RawError` variants in the raw-literal decoder;
- `Failure.Abort` in the evaluator;
- `SliceError` in the error locator.

The source's own errors are ordinary `Err` values:
- `LexError` in the string decoder, with `Message` giving the text;
- `Failure.Error` in the evaluator.

Files:
- `wrappers.dfy`: `Option`, `Result` and the `Prepend` helper.
- `string_literal.dfy`, `raw_literal.dfy`, `interpreter.dfy`, `error_report.dfy`: one module each, for the pieces above.

Where the code and its comments differ, the model follows the code. The doc comment at
src/parser.rs:121 says that `\u1f5741` gives U+1F5741. The code does read the six digits
as 0x1F5741, but that value is past U+10FFFF, so `char_from_codepoint` rejects it
(`StringLiteral.DocCommentSixDigitExample`).

## Model

| member | source | states |
|---|---|---|
| StringLiteral.CharFromCodepoint | src/parser.rs:149-159 | Succeeds exactly on Unicode scalar values (no surrogates, nothing past U+10FFFF), yielding the char with that value; otherwise the error names the code point |
| StringLiteral.HexRun | src/parser.rs:115-128 | The digits a `\u` escape takes: at most the limit, all hexadecimal, and stopping only at the limit, the end, or a non-hex character |
| StringLiteral.HexDigitCaseInsensitive | src/parser.rs:125 | `to_digit(16)` ignores case: a lower-case letter has the value of its upper-case form, and every hex digit's value is written back by the upper-case digit of the error message |
| StringLiteral.UnescapeStringLiteral | src/parser.rs:74-147 | The escape-state loop returns exactly what the recursive-descent reading `Unescaped` of the literal between its quotes gives, error cases included |
| StringLiteral.PlainPrefix | src/parser.rs:93-99 | Text without a backslash is copied unchanged and in order, and decoding continues after it |
| StringLiteral.PlainTextUnchanged | src/parser.rs:93-99 | A body without backslashes decodes to itself |
| StringLiteral.TrailingBackslashDropped | src/parser.rs:138-144 | A lone backslash at the end of a backslash-free body is dropped without an error: the body decodes to the text before it |
| StringLiteral.SimpleEscape | src/parser.rs:103-105 | `\\`, `\"` and `\n` decode to backslash, quote and newline, and decoding continues after them |
| StringLiteral.InvalidEscapeRejected | src/parser.rs:107-111 | A backslash before any character other than `\`, `"`, `n`, `u` makes the whole literal fail with an error naming that character |
| StringLiteral.HexRunStops | src/parser.rs:115-128 | An escape takes exactly the hex digits present when they are followed by the limit, the end, or a non-hex character |
| StringLiteral.UnicodeEscapeForm | src/parser.rs:106-144 | A `\u` escape with up to six digits gives one code point folded as value·16+digit. A non-scalar value is an error. The character ending the escape is copied literally, whatever it is. At end of input the escape is flushed |
| StringLiteral.AccumulateHexBound | src/parser.rs:126 | Folding n digits onto v stays below (v+1)·16^n |
| StringLiteral.UnicodeValueFitsU32 | src/parser.rs:126 | The fold `codepoint * 16 + d` over an escape of at most six digits stays below 2^24, so the `u32` of the escape state (src/parser.rs:87) never wraps |
| StringLiteral.DecodedNoLonger | src/parser.rs:77 | The decoded string never has more characters than the text between the quotes; counted in characters, not the bytes `s.len() - 2` counts |
| StringLiteral.EscapedRoundTrip | src/parser.rs:100-106 | Decoding inverts escaping backslash, quote and newline, for every string |
| StringLiteral.QuotedRoundTrip | src/parser.rs:93-99 | With the quotes added and dropped again, the full decoder gives back every string |
| StringLiteral.Message | src/parser.rs:149-158 | The code-point error reads `Invalid code point U+`, upper-case hex digits without a leading zero (`{:X}`) and a dot, and the digits read back as the rejected code point. The escape error of src/parser.rs:109 is exactly `Invalid escape code '`, a backslash, the offending character and `'.` |
| StringLiteral.UpperHexRoundTrip | src/parser.rs:149-158 | The upper-case hex number in the "Invalid code point U+…" message reads back as the rejected value |
| StringLiteral.SimpleEscapeTests | src/parser.rs:185-201 | The unit tests: `""` gives the empty string, `"x\"y"` gives `x"y`, `"\n"` gives a newline |
| StringLiteral.UnicodeThenPlain | src/parser.rs:203-207 | The unit test's shape: `\u1f574` followed by plain text not starting with a hex digit gives U+1F574 and then that text |
| StringLiteral.UnicodeAtEndTest | src/parser.rs:209-213 | The unit test: an escape at the end of the literal is flushed as U+1F574 |
| StringLiteral.ShortEscapeTest | src/parser.rs:215-219 | The unit test: `\u0a` ended by `n` gives a newline, then `newline` |
| StringLiteral.SixDigitsThenHexTest | src/parser.rs:222-224 | The first unit test: `\u00000a` takes six digits, so the `f` after them is copied literally |
| StringLiteral.SixDigitsThenLetterTest | src/parser.rs:225-226 | The second unit test: `\u0000af` takes six digits and gives U+00AF, then `g` |
| StringLiteral.TwoDigitEscapeThenText | src/parser.rs:215-219 | `\u0a` followed by any text that starts with a non-hex character and has no backslash decodes to a newline followed by that text |
| StringLiteral.DocCommentShortExamples | src/parser.rs:118-120 | The doc comment's first examples: `\u` alone is U+0, and `\u1f574z` is U+1F574 then `z` |
| StringLiteral.DocCommentSixDigitExample | src/parser.rs:121 | `\u1f5741` reads six digits as 0x1F5741 and is rejected as an invalid code point |
| StringLiteral.DocCommentSeventhDigitExample | src/parser.rs:122 | `\u01f5741` gives U+1F574 then the character `1` |
| RawLiteral.FirstIndexOf | src/parser.rs:45 | `find('\n')`: the index of the first occurrence, or none when the character does not occur |
| RawLiteral.LastIndexOf | src/parser.rs:31 | `rfind('\n')`: the index of the last occurrence, or none when the character does not occur |
| RawLiteral.SplitLines | src/parser.rs:41-64 | The lines the cursor visits: at least one, none holding a newline, and joined with newlines they give back the text |
| RawLiteral.SplitJoin | src/parser.rs:41-64 | Splitting undoes joining for lines without newlines |
| RawLiteral.UnescapeRawStringLiteral | src/parser.rs:18-70 | The cursor loop returns exactly `RawDecoded`. The checks run in the source's order: length, a newline somewhere, a newline after the opening marker, the slice `[1..last]`. Then the lines between are stripped |
| RawLiteral.RawPreludeRejections | src/parser.rs:24-36 | Fewer than 7 characters gives `TooShort`, no newline between the markers gives `NoNewline`, and an opening `---` without a newline after it gives `NoNewlineAfterOpening`; a literal that decodes passes all three checks |
| RawLiteral.StripLinesMeaning | src/parser.rs:41-64 | Stripping succeeds iff every interior line is empty or longer than the indent with only spaces in it, and the last line is at least the indent long with only spaces in it. The result is then the lines without their indentation, newlines kept |
| RawLiteral.RawDecodedShape | src/parser.rs:24-39 | For `---`, newline, body, newline, n spaces, `---`, the indent is n and the text stripped is exactly the body: the newlines next to the markers are dropped |
| RawLiteral.RawRoundTrip | src/parser.rs:17-64 | Any text, indented line by line to the closing marker's column (empty interior lines left empty), decodes back to itself |
| RawLiteral.StripsDashesTest | src/parser.rs:161-165 | The unit test: `---\nhi\n---` gives `hi` |
| RawLiteral.StripsIndentTest | src/parser.rs:167-171 | The unit test: the closing marker's indentation is removed from the line |
| RawLiteral.PreservesNewlinesTest | src/parser.rs:173-177 | The unit test: newlines and extra indentation are kept |
| RawLiteral.AllowsBlankLinesTest | src/parser.rs:179-183 | The unit test: an empty interior line passes through as a bare newline |
| RawLiteral.EmptyBodyRejected | src/parser.rs:41 | `---\n---` has its last newline at 0, so the slice `[1..0]` is out of range |
| RawLiteral.SpacesOnlyLineRejected | src/parser.rs:54 | An interior line holding only the indentation fails the `index > indent` check, although an empty line passes |
| RawLiteral.TrailingBlankLineRejected | src/parser.rs:62-64 | An empty last line under an indented closing marker fails the final slice `left[indent..]` |
| RawLiteral.StripFinalChecksIndentFirst | src/parser.rs:61-64 | The final line's indent is checked for non-space characters before it is sliced, so a line shorter than the indent that holds a non-space fails with the indent error, not the slice error |
| Interpreter.InitialBindings | src/interpreter.rs:34-39 | A new environment binds exactly `font_size`, to a length of one tenth of the canvas height |
| Interpreter.Env.constructor | src/interpreter.rs:34-39 | `Env::new` starts with those bindings |
| Interpreter.Env.Clone | src/interpreter.rs:121 | The copy a block runs on has the same bindings as the caller's environment |
| Interpreter.Env.Put | src/interpreter.rs:66-68 | Binds the identifier, replacing its old value, and leaves every other binding as it was |
| Interpreter.ShowPath | src/interpreter.rs:52 | The path as the type error prints it starts with its first segment |
| Interpreter.ShowPathDots | src/interpreter.rs:52 | When no segment holds a dot, the printed path holds exactly one dot fewer than it has segments |
| Interpreter.Lookup | src/interpreter.rs:41-46 | Succeeds exactly when the path's first segment is bound, yielding its value. Otherwise the error names the first segment |
| Interpreter.TypeError | src/interpreter.rs:51-52 | The type error is `Type error: expected num, but `, the printed path, then ` is <TODO>.` |
| Interpreter.LookupNum | src/interpreter.rs:48-55 | Succeeds exactly on a `Num` binding. A lookup error is passed on, and any other value is a type error |
| Interpreter.LookupLen | src/interpreter.rs:57-64 | Succeeds exactly on a `Len` binding. A lookup error is passed on, and any other value is the same "expected num" type error |
| Interpreter.EvalString | src/interpreter.rs:91-96 | The literal without its first and last character, escapes left as written; shorter than two characters it panics |
| Interpreter.EvalNum | src/interpreter.rs:98-116 | Without a unit the result is a `Num`, with one a `Len`. It fails (a panic) exactly for `em` when `font_size` is not bound to a length |
| Interpreter.UnitValues | src/interpreter.rs:98-116 | For every x: no unit gives `Num(x)`, `w` gives `Len(1920·x)`, `h` gives `Len(1080·x)`, `pt` gives `Len(x)`, and `em` gives `font_size` times x when `font_size` is a length |
| Interpreter.Exec | src/interpreter.rs:138-146 | A `return` statement always fails with "'return' cannot be used here.". An assignment is `ExecAssign`; the unimplemented statements abort. Only an assignment completes, and then the bound names are the old ones plus its target, every other name keeping its value |
| Interpreter.ExecAssign | src/interpreter.rs:148-153 | The right-hand side is evaluated in the old bindings. On success exactly the target is rebound to it; on failure its error is passed on |
| Interpreter.EvalExpr | src/interpreter.rs:77-89 | Evaluating a term gives `Eval` of the environment's bindings and leaves the environment unchanged (no `modifies`) |
| Interpreter.EvalBlock | src/interpreter.rs:118-134 | The loop over the copied environment gives `Run` from the first statement, and the caller's environment is not changed |
| Interpreter.EvalStatement | src/interpreter.rs:138-146 | On success the environment becomes `Exec` of its old bindings; on failure it is left unchanged and the error is passed on |
| Interpreter.EvalAssign | src/interpreter.rs:148-153 | On success the environment becomes the old one with the target rebound; on failure it is left unchanged |
| Interpreter.LookupFirstSegmentOnly | src/interpreter.rs:42-44 | A longer path finds exactly what its first segment finds |
| Interpreter.LookupAfterPut | src/interpreter.rs:66-68 | After binding x, a lookup of x finds the new value and a lookup of any other name finds what it found before |
| Interpreter.DefaultEmIsTenthOfHeight | src/interpreter.rs:36-37 | In a fresh environment, x em equals x/10 h |
| Interpreter.EmFollowsFontSize | src/interpreter.rs:105-111 | x em is as many points as `font_size` (looked up in the current bindings) times x |
| Interpreter.CanvasUnits | src/interpreter.rs:102-104 | For every x, x `w` is 1920·x points and x `h` is 1080·x points |
| Interpreter.ExecAllKeepsNames | src/interpreter.rs:129 | Running statements never unbinds a name, so the `font_size` of the initial environment stays bound |
| Interpreter.BlockWithoutReturn | src/interpreter.rs:123-133 | A block without `return` is the `Box` of the bindings its statements leave in order; the first failing statement's error stops it |
| Interpreter.BlockFirstReturnDecides | src/interpreter.rs:125-129 | The first `return` decides the block: the statements before it run in order, and its expression is evaluated in the bindings they leave |
| Interpreter.StatementsAfterReturnIgnored | src/interpreter.rs:127 | Blocks that agree up to their first `return` evaluate alike, whatever statements follow it |
| Interpreter.ScopingExample | src/interpreter.rs:119-121 | A block that rebinds `x` sees its own binding, while the caller keeps its own. A block that rebinds `font_size` changes the `em` inside it only |
| ErrorReport.LineStart | src/bin/pris.rs:114-122 | The line start is at or before the offset, at 0 or just after a newline, with no newline between it and the offset |
| ErrorReport.NextNewline | src/bin/pris.rs:123-128 | The first newline at or after a position, or none when no newline follows |
| ErrorReport.FindLineStart | src/bin/pris.rs:113-122 | The first loop: the line number is 1 plus the newlines before the offset (clamped to the input length), and `start` is `LineStart` |
| ErrorReport.LineStartUnique | src/bin/pris.rs:114-122 | Those three facts determine the line start |
| ErrorReport.FindNewline | src/bin/pris.rs:123-128 | The second loop finds `NextNewline` |
| ErrorReport.MarkerLine | src/bin/pris.rs:136-139 | The marker is `column` spaces, one `^`, and `len - 1` tildes (none when `len <= 1`) |
| ErrorReport.ReportError | src/bin/pris.rs:110-140 | As written: it fails exactly when the start lies past the end. Otherwise it reports the line number, the excerpt `input[start..end]` and the marker: `location - start` spaces, a caret, and a tilde for each further character of the token |
| ErrorReport.AsWrittenFailsOnLastLine | src/bin/pris.rs:115-132 | The end lies before the start exactly when the line is not the first and no newline follows it |
| ErrorReport.LastLineExamples | src/bin/pris.rs:115-132 | For `a\nb` at offset 2 the report fails; for `ab` at offset 1 the excerpt is empty |
| ErrorReport.ReportErrorCorrected | src/bin/pris.rs:110-140 | With the end defaulting to the input length, the report always succeeds, with the excerpt running to the line's end and the same marker of spaces, caret and tildes |
| ErrorReport.CorrectedExcerptIsLine | src/bin/pris.rs:113-132 | The corrected excerpt is exactly the line holding the offset: it starts at 0 or after a newline, ends at a newline or the end of input, holds no newline, and the offset lies within it |
| ErrorReport.LineEndPastOffset | src/bin/pris.rs:123-128 | When no newline lies between the line start and the offset, the corrected end is at or past the offset, at a newline or the input's end, with no newline before it |
| ErrorReport.LineNumberFromStart | src/bin/pris.rs:113-122 | The line number counts the same newlines whether counted up to the offset or up to the line's start |

## Left out

- `src/driver.rs`: rendering through Cairo, fonts and SVG, calls into code that is not part of this model.
- `main` and `parse_or_abort` in `src/bin/pris.rs`: argument handling, file and stdin reading, printing and process exit. The frame loop calls `eval_statement` with a signature that differs from the one in `src/interpreter.rs`, and `runtime` is not part of this model.
- Printing in `report_error`, and the lossy UTF-8 conversion of the excerpt: the excerpt is kept as bytes.
- The evaluator arms the source leaves unimplemented (`Color`, `Coord`, `BinOp`, `FnCall`, `FnDef` terms; `Import`, `Block`, `PutAt` statements) give `Abort` with the source's TODO text. Their contents are not modelled.
- Interpreter.Lookup: only the first path segment is looked up, as in the source; nested lookup is unimplemented there. An empty path, which the parser never produces, gives `Abort` (the index panic).
- Interpreter.LookupNum: the type error prints the path with `Display` for `Idents`, which is not part of this model. `ShowPath` joins the segments with dots.
- Numbers and lengths are `real`, not `f64`: IEEE rounding is not modelled.
- `Rc` sharing: a `Box` holds a snapshot of the bindings, since the shared environment is never mutated after it is boxed.
- The lalrpop `ParseError` is replaced by `LexError`.
- The raw-literal decoder works on characters rather than UTF-8 bytes; `str` slicing at byte offsets that are not char boundaries is not modelled. The `debug_assert` on capacity is left out, but a literal of fewer than 7 characters gives `TooShort`, where `literal.len() - 7` underflows.
- StringLiteral.DecodedNoLonger: bounds the output in characters. `String::with_capacity(s.len() - 2)` counts UTF-8 bytes, and the model has no byte encoding of characters, so that the capacity also suffices in bytes is not proved.
- StringLiteral.UnescapeStringLiteral: requires at least two characters, since `s.len() - 2` and `s[1..s.len() - 1]` panic on shorter text and the lexer always passes a literal with both quotes.
- StringLiteral.UnicodeThenPlain: states the unit test at src/parser.rs:203-207 for any plain text after the escape; the test's own 28-character text is not spelled out.
- Val's `Col`, `NumCoord`, `LenCoord` and `Fn` values are declared but never produced, because the arms that would build them are unimplemented.

## Findings

| source | as written | input that shows it | evidently intended | confidence | as-written member | corrected member |
|---|---|---|---|---|---|---|
| src/bin/pris.rs:115-132 | `end` starts at 0 and changes only when a newline follows the line start. The excerpt `input[start..end]` therefore panics on a last line without a newline that is not the first line, and is empty on a first line without a newline | `a\nb` with offset 2: start 2, end 0, slice panics. `ab` with offset 1: excerpt empty | the line runs to the end of the input when no newline ends it | high; not executed | ErrorReport.ReportError, ErrorReport.AsWrittenFailsOnLastLine, ErrorReport.LastLineExamples | ErrorReport.ReportErrorCorrected, ErrorReport.CorrectedExcerptIsLine |

=== FILE: error_report.dfy ===
/**
  The error locator of src/bin/pris.rs (`report_error`): given the input bytes, the byte
  offset of a parse error and the length of the offending token, it finds the 1-based line
  number, the offsets where that line starts and ends, and the marker line that underlines
  the token with `^~~~`.

  The first loop of the source counts newlines up to the offset and remembers where the
  last line began; the second looks for the newline that ends that line. The source leaves
  `end` at 0 when no newline follows, so on a last line without a newline the excerpt
  `input[start..end]` is empty or out of range. `ReportError` is that code as written;
  `ReportErrorCorrected` lets the line run to the end of the input instead.
  Printing, and the lossy UTF-8 conversion of the excerpt, are not modelled.
*/
module ErrorReport {
  import opened Wrappers

  newtype byte = x: int | 0 <= x < 256

  const NL: byte := 10

  function Min(a: nat, b: nat): nat {
    if a <= b then a else b
  }

  /** Where the line holding offset `m` starts: just past the last newline before `m`, or 0. */
  function LineStart(input: seq<byte>, m: nat): (start: nat)
    requires m <= |input|
    ensures start <= m
    ensures start == 0 || input[start - 1] == NL
    ensures NL !in input[start..m]
  {
    if m == 0 then 0
    else if input[m - 1] == NL then m
    else
      var s := LineStart(input, m - 1);
      assert input[s..m] == input[s..m - 1] + [input[m - 1]];
      s
  }

  /** The first newline at or after `from`, if there is one. */
  function NextNewline(input: seq<byte>, from: nat): (r: Option<nat>)
    requires from <= |input|
    ensures r.Some? ==> from <= r.value < |input| && input[r.value] == NL && NL !in input[from..r.value]
    ensures r.None? ==> NL !in input[from..]
    decreases |input| - from
  {
    if from == |input| then None
    else if input[from] == NL then Some(from)
    else
      var r := NextNewline(input, from + 1);
      assert input[from..] == [input[from]] + input[from + 1..];
      if r.Some? then
        assert input[from..r.value] == [input[from]] + input[from + 1..r.value];
        r
      else r
  }

  /** Where the source takes the line to end: at the next newline, or at 0 when there is none. */
  function LineEndAsWritten(input: seq<byte>, start: nat): nat
    requires start <= |input|
  {
    match NextNewline(input, start)
    case Some(k) => k
    case None => 0
  }

  /** Where the line ends: at the next newline, or at the end of the input. */
  function LineEnd(input: seq<byte>, start: nat): nat
    requires start <= |input|
  {
    match NextNewline(input, start)
    case Some(k) => k
    case None => |input|
  }

  /**
    The first loop: the line number is one more than the newlines before the offset
    (or before the end of the input, if the offset lies past it), and `start` is where
    that line begins.
  */
  method FindLineStart(input: seq<byte>, location: nat) returns (line: nat, start: nat)
    ensures line == 1 + multiset(input[..Min(location, |input|)])[NL]
    ensures start == LineStart(input, Min(location, |input|))
  {
    line := 1;
    start := 0;
    var i := 0;
    while i < |input|
      invariant i <= |input| && i <= location
      invariant line == 1 + multiset(input[..i])[NL]
      invariant start <= i && (start == 0 || input[start - 1] == NL) && NL !in input[start..i]
    {
      if i == location {
        break;
      }
      assert input[..i + 1] == input[..i] + [input[i]];
      if input[i] == NL {
        line := line + 1;
        start := i + 1;
      } else {
        assert input[start..i + 1] == input[start..i] + [input[i]];
      }
      i := i + 1;
    }
    assert i == Min(location, |input|);
    LineStartUnique(input, i, start);
  }

  /** The three facts of `LineStart`'s contract pin it down. */
  lemma LineStartUnique(input: seq<byte>, m: nat, s: nat)
    requires m <= |input| && s <= m
    requires s == 0 || input[s - 1] == NL
    requires NL !in input[s..m]
    ensures s == LineStart(input, m)
  {
  }

  /** The second loop: the first newline at or after `from`. */
  method FindNewline(input: seq<byte>, from: nat) returns (r: Option<nat>)
    requires from <= |input|
    ensures r == NextNewline(input, from)
  {
    var j := from;
    while j < |input|
      invariant from <= j <= |input|
      invariant NL !in input[from..j]
    {
      if input[j] == NL {
        NextNewlineUnique(input, from, j);
        return Some(j);
      }
      assert input[from..j + 1] == input[from..j] + [input[j]];
      j := j + 1;
    }
    assert input[from..] == input[from..j];
    return None;
  }

  lemma NextNewlineUnique(input: seq<byte>, from: nat, k: nat)
    requires from <= k < |input| && input[k] == NL && NL !in input[from..k]
    ensures NextNewline(input, from) == Some(k)
  {
  }

  /** `column` spaces, a caret, and a tilde for each character of the token after the first. */
  method MarkerLine(column: nat, len: nat) returns (m: string)
    ensures |m| == column + (if len == 0 then 1 else len)
    ensures forall i | 0 <= i < column :: m[i] == ' '
    ensures m[column] == '^'
    ensures forall i | column < i < |m| :: m[i] == '~'
  {
    m := [];
    var i := 0;
    while i < column
      invariant i <= column && |m| == i
      invariant forall j | 0 <= j < i :: m[j] == ' '
    {
      m := m + [' '];
      i := i + 1;
    }
    m := m + ['^'];
    var t := 1;
    while t < len
      invariant 1 <= t && (len == 0 || t <= len) && (len <= 1 ==> t == 1)
      invariant |m| == column + t
      invariant forall j | 0 <= j < column :: m[j] == ' '
      invariant m[column] == '^'
      invariant forall j | column < j < |m| :: m[j] == '~'
    {
      m := m + ['~'];
      t := t + 1;
    }
  }

  /** The panic of a slice whose start lies past its end ("slice index starts at … but ends at …"). */
  datatype SliceError = SliceIndexOrder(start: nat, end: nat)

  /** What the report shows: the line number, the bytes of the line, and the marker under the token. */
  datatype Report = Report(line: nat, excerpt: seq<byte>, marker: string)

  /**
    `report_error` as written. It stops with a panic (here `Err`) when the excerpt's
    bounds are reversed, which is when the line is the last, has no newline, and is not
    the first.
  */
  method ReportError(input: seq<byte>, location: nat, len: nat) returns (r: Result<Report, SliceError>)
    ensures var m := Min(location, |input|);
            var start := LineStart(input, m);
            var end := LineEndAsWritten(input, start);
            (r.Err? <==> start > end)
            && (r.Err? ==> r.error == SliceIndexOrder(start, end))
            && (r.Ok? ==> r.value.line == 1 + multiset(input[..m])[NL]
                          && r.value.excerpt == input[start..end]
                          && |r.value.marker| == location - start + (if len == 0 then 1 else len)
                          && (forall i | 0 <= i < location - start :: r.value.marker[i] == ' ')
                          && r.value.marker[location - start] == '^'
                          && (forall i | location - start < i < |r.value.marker| :: r.value.marker[i] == '~'))
  {
    var line, start := FindLineStart(input, location);
    var next := FindNewline(input, start);
    var end := if next.Some? then next.value else 0;
    if start > end {
      return Err(SliceIndexOrder(start, end));
    }
    var marker := MarkerLine(location - start, len);
    return Ok(Report(line, input[start..end], marker));
  }

  /**
    The panic happens exactly on a last line that lacks a newline and does not start the
    input.
  */
  lemma AsWrittenFailsOnLastLine(input: seq<byte>, location: nat)
    ensures var start := LineStart(input, Min(location, |input|));
            LineEndAsWritten(input, start) < start <==> start > 0 && NL !in input[start..]
  {
    var start := LineStart(input, Min(location, |input|));
    match NextNewline(input, start)
    case Some(k) =>
      assert input[k] in input[start..];
    case None =>
  }

  /** The smallest inputs that show it: a panic on the second line, and an empty excerpt on the first. */
  method LastLineExamples() returns (second: Result<Report, SliceError>, first: Result<Report, SliceError>)
    ensures second.Err?
    ensures first.Ok? && first.value.excerpt == [] && first.value.line == 1
  {
    var ab := [97 as byte, 98];
    var aNLb := [97 as byte, NL, 98];
    assert LineStart(aNLb, 2) == 2;
    assert NextNewline(aNLb, 2) == None by {
      assert aNLb[2..] == [98];
    }
    second := ReportError(aNLb, 2, 1);
    assert ab[..1] == [97];
    assert LineStart(ab, 1) == 0;
    assert NextNewline(ab, 0) == None by {
      assert ab[0..] == ab;
    }
    first := ReportError(ab, 1, 1);
  }

  /** `report_error` with the line running to the end of the input when no newline ends it. */
  method ReportErrorCorrected(input: seq<byte>, location: nat, len: nat) returns (r: Report)
    ensures var m := Min(location, |input|);
            var start := LineStart(input, m);
            r.line == 1 + multiset(input[..m])[NL]
            && r.excerpt == input[start..LineEnd(input, start)]
            && |r.marker| == location - start + (if len == 0 then 1 else len)
            && (forall i | 0 <= i < location - start :: r.marker[i] == ' ')
            && r.marker[location - start] == '^'
            && (forall i | location - start < i < |r.marker| :: r.marker[i] == '~')
  {
    var line, start := FindLineStart(input, location);
    var next := FindNewline(input, start);
    var end := if next.Some? then next.value else |input|;
    var marker := MarkerLine(location - start, len);
    return Report(line, input[start..end], marker);
  }

  /**
    The corrected excerpt is exactly the line holding the offset: it starts at the input's
    start or after a newline, ends at a newline or the input's end, holds no newline, and
    the offset lies within it (at its end when the offset points at the newline).
  */
  lemma CorrectedExcerptIsLine(input: seq<byte>, location: nat)
    ensures var m := Min(location, |input|);
            var start := LineStart(input, m);
            var end := LineEnd(input, start);
            start <= m <= end <= |input|
            && (start == 0 || input[start - 1] == NL)
            && (end == |input| || input[end] == NL)
            && NL !in input[start..end]
  {
    var m := Min(location, |input|);
    LineEndPastOffset(input, m, LineStart(input, m));
  }

  lemma LineEndPastOffset(input: seq<byte>, m: nat, start: nat)
    requires start <= m <= |input| && NL !in input[start..m]
    ensures m <= LineEnd(input, start) <= |input|
    ensures LineEnd(input, start) == |input| || input[LineEnd(input, start)] == NL
    ensures NL !in input[start..LineEnd(input, start)]
  {
    if NextNewline(input, start).None? {
      assert input[start..|input|] == input[start..];
    }
  }

  /** The line number counts the newlines before the line's start: none lie between it and the offset. */
  lemma LineNumberFromStart(input: seq<byte>, m: nat)
    requires m <= |input|
    ensures multiset(input[..m])[NL] == multiset(input[..LineStart(input, m)])[NL]
  {
    var start := LineStart(input, m);
    assert input[..m] == input[..start] + input[start..m];
    assert multiset(input[..m]) == multiset(input[..start]) + multiset(input[start..m]);
  }
}

=== FILE: interpreter.dfy ===
/**
  The evaluator of src/interpreter.rs: values, the environment, and the evaluation of
  expressions, blocks and statements.

  The environment is an object whose binding map statements update in place (`Env`).
  Expression evaluation only reads it; a block evaluates on a copy, so the caller's
  environment is never changed. The methods `EvalExpr`, `EvalBlock`, `EvalStatement` and
  `EvalAssign` follow the source function by function and are each proved equal to a
  function over binding maps (`Eval`, `Run`, `Exec`); the lemmas then say what those
  functions mean. The source panics on the arms it does not implement yet and where an
  `unwrap` fails; here those give `Abort`, kept apart from the ordinary `Error` strings.
*/
module Interpreter {
  import opened Wrappers

  // The canvas is 1920 by 1080 points.
  const CanvasWidth: real := 1920.0
  const CanvasHeight: real := 1080.0

  const FontSize: string := "font_size"
  const ReturnMisplaced: string := "'return' cannot be used here."

  // The syntax tree, restricted to what the evaluator looks at.

  datatype Unit = W | H | Pt | Em

  /** A number literal with an optional unit (`Num` in the source). */
  datatype NumLit = NumLit(value: real, unit: Option<Unit>)

  /** A dotted identifier path, such as `a.b.c` (`Idents` in the source). */
  datatype Path = Path(path: seq<string>)

  /** The argument list and body of a function definition (`FnDef` in the source). */
  datatype FnDefn = FnDefn(params: seq<string>, body: Body)

  datatype Term =
    | String(literal: string)   // the literal as written, quotes included
    | Number(num: NumLit)
    | Idents(idents: Path)
    | Block(block: Body)
    | Color                     // the arms below are not evaluated yet; their contents are not modelled
    | Coord
    | BinOp
    | FnCall
    | FnDef

  /** The statements of a block (`Block` in the source). */
  datatype Body = Body(stmts: seq<Stmt>)

  datatype Stmt =
    | Assign(target: string, expr: Term)
    | Return(expr: Term)
    | Import                    // the arms below are not executed yet; their contents are not modelled
    | Block
    | PutAt

  // Values and environments.

  datatype Val =
    | Num(x: real)
    | Len(len: real)
    | Str(s: string)
    | Col(r: real, g: real, b: real)
    | NumCoord(nx: real, ny: real)
    | LenCoord(lx: real, ly: real)
    | Box(scope: Bindings)      // the environment a block left behind
    | Fn(def: FnDefn)

  type Bindings = map<string, Val>

  /** `Error` is the source's error string; `Abort` stands for a panic. */
  datatype Failure = Error(message: string) | Abort(reason: string)

  /** The bindings of a fresh environment: only the default font size, a tenth of the canvas height. */
  function InitialBindings(): (b: Bindings)
    ensures b.Keys == {FontSize}
    ensures b[FontSize] == Len(CanvasHeight / 10.0)
  {
    map[FontSize := Len(108.0)]
  }

  /** An environment: the bindings that statements update in place. */
  class Env {
    var bindings: Bindings

    constructor ()
      ensures bindings == InitialBindings()
    {
      bindings := map[FontSize := Len(108.0)];
    }

    /** `Clone` of the derived kind: a new environment with the same bindings. */
    constructor Clone(other: Env)
      ensures bindings == other.bindings
    {
      bindings := other.bindings;
    }

    /** Binds `ident`, replacing what it was bound to. */
    method Put(ident: string, val: Val)
      modifies this
      ensures bindings == old(bindings)[ident := val]
    {
      bindings := bindings[ident := val];
    }
  }

  // Lookups. They read a binding map, so the evaluator below and `Env` share them.

  /** The path as `Display` writes it, segments separated by dots. */
  function ShowPath(path: seq<string>): (r: string)
    ensures path != [] ==> |path[0]| <= |r| && r[..|path[0]|] == path[0]
  {
    if |path| <= 1 then (if path == [] then "" else path[0])
    else path[0] + "." + ShowPath(path[1..])
  }

  /** Without dots inside the segments, the text of a path holds one dot between each two segments. */
  lemma {:induction false} ShowPathDots(path: seq<string>)
    requires path != [] && forall i | 0 <= i < |path| :: '.' !in path[i]
    ensures multiset(ShowPath(path))['.'] == |path| - 1
    decreases |path|
  {
    if |path| > 1 {
      ShowPathDots(path[1..]);
      var rest := ShowPath(path[1..]);
      assert ShowPath(path) == path[0] + "." + rest;
      assert multiset(path[0] + "." + rest) == multiset(path[0]) + multiset(".") + multiset(rest);
    }
  }

  /** Only the first segment of the path is looked up; an empty path has no first segment. */
  function Lookup(b: Bindings, idents: Path): (r: Result<Val, Failure>)
    ensures r.Ok? <==> idents.path != [] && idents.path[0] in b
    ensures r.Ok? ==> r.value == b[idents.path[0]]
    ensures idents.path != [] && idents.path[0] !in b
        ==> r == Err(Error("Variable '" + idents.path[0] + "' does not exist."))
  {
    if idents.path == [] then Err(Abort("index out of bounds"))
    else if idents.path[0] in b then Ok(b[idents.path[0]])
    else Err(Error("Variable '" + idents.path[0] + "' does not exist."))
  }

  /** The message of a lookup that finds a value of the wrong kind: it names the path as written. */
  function TypeError(idents: Path): (r: string)
    ensures |r| == 30 + |ShowPath(idents.path)| + 11
    ensures r[..30] == "Type error: expected num, but "
    ensures r[30..30 + |ShowPath(idents.path)|] == ShowPath(idents.path)
    ensures r[30 + |ShowPath(idents.path)|..] == " is <TODO>."
  {
    "Type error: expected num, but " + ShowPath(idents.path) + " is <TODO>."
  }

  /** The number a path is bound to; any other kind of value is a type error. */
  function LookupNum(b: Bindings, idents: Path): (r: Result<real, Failure>)
    ensures r.Ok? <==> Lookup(b, idents).Ok? && Lookup(b, idents).value.Num?
    ensures r.Ok? ==> Lookup(b, idents) == Ok(Num(r.value))
    ensures Lookup(b, idents).Err? ==> r == Err(Lookup(b, idents).error)
    ensures Lookup(b, idents).Ok? && !Lookup(b, idents).value.Num? ==> r == Err(Error(TypeError(idents)))
  {
    var v :- Lookup(b, idents);
    if v.Num? then Ok(v.x) else Err(Error(TypeError(idents)))
  }

  /** The length a path is bound to; the type error names `num`, as in the source. */
  function LookupLen(b: Bindings, idents: Path): (r: Result<real, Failure>)
    ensures r.Ok? <==> Lookup(b, idents).Ok? && Lookup(b, idents).value.Len?
    ensures r.Ok? ==> Lookup(b, idents) == Ok(Len(r.value))
    ensures Lookup(b, idents).Err? ==> r == Err(Lookup(b, idents).error)
    ensures Lookup(b, idents).Ok? && !Lookup(b, idents).value.Len? ==> r == Err(Error(TypeError(idents)))
  {
    var v :- Lookup(b, idents);
    if v.Len? then Ok(v.len) else Err(Error(TypeError(idents)))
  }

  // Literals.

  /** A string literal without its first and last character; escapes are left as written. */
  function EvalString(literal: string): (r: Result<Val, Failure>)
    ensures r.Ok? <==> |literal| >= 2
    ensures r.Ok? ==> r.value.Str? && [literal[0]] + r.value.s + [literal[|literal| - 1]] == literal
  {
    if |literal| < 2 then Err(Abort("slice index out of range"))
    else Ok(Str(literal[1..|literal| - 1]))
  }

  /**
    A number with its unit applied: `w` and `h` are fractions of the canvas, `pt` is one
    point, and `em` is a multiple of the `font_size` in scope, which must be a length.
  */
  function EvalNum(b: Bindings, num: NumLit): (r: Result<Val, Failure>)
    ensures r.Err? <==> num.unit == Some(Em) && !(FontSize in b && b[FontSize].Len?)
    ensures r.Err? ==> r.error.Abort?
    ensures r.Ok? ==> (r.value.Num? <==> num.unit.None?) && (r.value.Num? || r.value.Len?)
  {
    match num.unit
    case None => Ok(Num(num.value))
    case Some(W) => Ok(Len(CanvasWidth * num.value))
    case Some(H) => Ok(Len(CanvasHeight * num.value))
    case Some(Pt) => Ok(Len(1.0 * num.value))
    case Some(Em) =>
      match LookupLen(b, Path([FontSize]))
      case Ok(emsize) => Ok(Len(emsize * num.value))
      case Err(_) => Err(Abort("called `Result::unwrap()` on an `Err` value"))
  }

  // The evaluator, as functions over binding maps.

  /** What `eval_expr` yields for `t` in an environment with bindings `b`. */
  function Eval(b: Bindings, t: Term): Result<Val, Failure>
    decreases t, 0
  {
    match t
    case String(s) => EvalString(s)
    case Number(n) => EvalNum(b, n)
    case Idents(path) => Lookup(b, path)
    case Block(blk) => Run(b, blk, 0)
    case Color => Err(Abort("TODO: eval color"))
    case Coord => Err(Abort("TODO: eval coordinate"))
    case BinOp => Err(Abort("TODO: eval binop"))
    case FnCall => Err(Abort("TODO: eval fncall"))
    case FnDef => Err(Abort("TODO: eval fndef"))
  }

  /**
    The rest of a block from statement `i` on, in bindings `b`: a `return` yields its
    value, any other statement updates the bindings, and at the end the block is a `Box`.
  */
  function Run(b: Bindings, blk: Body, i: nat): Result<Val, Failure>
    requires i <= |blk.stmts|
    decreases blk, |blk.stmts| - i
  {
    if i == |blk.stmts| then Ok(Box(b))
    else match blk.stmts[i]
      case Return(e) => Eval(b, e)
      case _ =>
        match Exec(b, blk.stmts[i])
        case Err(f) => Err(f)
        case Ok(b') => Run(b', blk, i + 1)
  }

  /** The bindings after `eval_statement`; only an assignment completes, and it binds one name more or anew. */
  function Exec(b: Bindings, s: Stmt): (r: Result<Bindings, Failure>)
    ensures s.Return? ==> r == Err(Error(ReturnMisplaced))
    ensures r.Ok? ==> s.Assign? && r.value.Keys == b.Keys + {s.target}
    ensures r.Ok? ==> forall k | k in b && k != s.target :: r.value[k] == b[k]
    ensures s.Assign? ==> r == ExecAssign(b, s.target, s.expr)
    ensures !s.Assign? && !s.Return? ==> r.Err? && r.error.Abort?
    decreases s, 0
  {
    match s
    case Import => Err(Abort("TODO: eval import"))
    case Assign(x, e) => ExecAssign(b, x, e)
    case Return(_) => Err(Error(ReturnMisplaced))
    case Block => Err(Abort("TODO: eval block"))
    case PutAt => Err(Abort("TODO: eval put at"))
  }

  /** `eval_assign`: the right-hand side in the old bindings, then `target` bound to it. */
  function ExecAssign(b: Bindings, target: string, e: Term): (r: Result<Bindings, Failure>)
    ensures r.Ok? <==> Eval(b, e).Ok?
    ensures r.Ok? ==> r.value == b[target := Eval(b, e).value]
    ensures r.Err? ==> r.error == Eval(b, e).error
    decreases e, 1
  {
    var v :- Eval(b, e);
    Ok(b[target := v])
  }

  // The evaluator as the source writes it.

  method EvalExpr(env: Env, term: Term) returns (r: Result<Val, Failure>)
    ensures r == Eval(env.bindings, term)
    decreases term, 0
  {
    match term {
      case String(s) => r := EvalString(s);
      case Number(n) => r := EvalNum(env.bindings, n);
      case Idents(path) => r := Lookup(env.bindings, path);
      case Block(blk) => r := EvalBlock(env, blk);
      case Color => r := Err(Abort("TODO: eval color"));
      case Coord => r := Err(Abort("TODO: eval coordinate"));
      case BinOp => r := Err(Abort("TODO: eval binop"));
      case FnCall => r := Err(Abort("TODO: eval fncall"));
      case FnDef => r := Err(Abort("TODO: eval fndef"));
    }
  }

  /**
    Runs the statements on a copy of `env`. Having no `modifies` clause, it leaves the
    caller's environment as it was.
  */
  method EvalBlock(env: Env, blk: Body) returns (r: Result<Val, Failure>)
    ensures r == Run(env.bindings, blk, 0)
    decreases blk, 0
  {
    var inner := new Env.Clone(env);
    ghost var goal := Run(env.bindings, blk, 0);
    var i := 0;
    while i < |blk.stmts|
      invariant 0 <= i <= |blk.stmts|
      invariant Run(inner.bindings, blk, i) == goal
    {
      var stmt := blk.stmts[i];
      if stmt.Return? {
        r := EvalExpr(inner, stmt.expr);
        return;
      }
      var done := EvalStatement(inner, stmt);
      if done.Err? {
        return Err(done.error);
      }
      i := i + 1;
    }
    return Ok(Box(inner.bindings));
  }

  /** `eval_statement`: the new bindings on success; on failure `env` is left as it was. */
  method EvalStatement(env: Env, stmt: Stmt) returns (r: Result<(), Failure>)
    modifies env
    ensures Exec(old(env.bindings), stmt).Ok? ==> r.Ok? && env.bindings == Exec(old(env.bindings), stmt).value
    ensures Exec(old(env.bindings), stmt).Err?
        ==> r == Err(Exec(old(env.bindings), stmt).error) && env.bindings == old(env.bindings)
    decreases stmt, 0
  {
    match stmt {
      case Import => r := Err(Abort("TODO: eval import"));
      case Assign(x, e) => r := EvalAssign(env, x, e);
      case Return(_) => r := Err(Error(ReturnMisplaced));
      case Block => r := Err(Abort("TODO: eval block"));
      case PutAt => r := Err(Abort("TODO: eval put at"));
    }
  }

  method EvalAssign(env: Env, target: string, expr: Term) returns (r: Result<(), Failure>)
    modifies env
    ensures ExecAssign(old(env.bindings), target, expr).Ok?
        ==> r.Ok? && env.bindings == ExecAssign(old(env.bindings), target, expr).value
    ensures ExecAssign(old(env.bindings), target, expr).Err?
        ==> r == Err(ExecAssign(old(env.bindings), target, expr).error) && env.bindings == old(env.bindings)
    decreases expr, 1
  {
    var value := EvalExpr(env, expr);
    if value.Err? {
      return Err(value.error);
    }
    env.Put(target, value.value);
    return Ok(());
  }

  // What the lookups and `put` promise.

  /** A lookup sees only the first segment: a longer path finds what its head finds. */
  lemma LookupFirstSegmentOnly(b: Bindings, head: string, rest: seq<string>)
    ensures Lookup(b, Path([head] + rest)) == Lookup(b, Path([head]))
  {
  }

  /** After binding `x`, looking `x` up finds the new value and every other name finds what it found before. */
  lemma LookupAfterPut(b: Bindings, x: string, v: Val, path: seq<string>)
    requires path != []
    ensures path[0] == x ==> Lookup(b[x := v], Path(path)) == Ok(v)
    ensures path[0] != x ==> Lookup(b[x := v], Path(path)) == Lookup(b, Path(path))
  {
  }

  // Units.

  /** In a fresh environment an `em` is a tenth of the canvas height. */
  lemma DefaultEmIsTenthOfHeight(x: real)
    ensures EvalNum(InitialBindings(), NumLit(x, Some(Em)))
         == EvalNum(InitialBindings(), NumLit(x / 10.0, Some(H)))
  {
    FontSizeLookup(InitialBindings());
    assert CanvasHeight * (x / 10.0) == 108.0 * x;
  }

  lemma FontSizeLookup(b: Bindings)
    ensures LookupLen(b, Path([FontSize]))
         == if FontSize in b && b[FontSize].Len? then Ok(b[FontSize].len)
            else if FontSize in b then Err(Error(TypeError(Path([FontSize]))))
            else Err(Error("Variable '" + FontSize + "' does not exist."))
  {
    assert Path([FontSize]).path[0] == FontSize;
  }

  /** An `em` is as many points as the `font_size` in scope is long. */
  lemma EmFollowsFontSize(b: Bindings, x: real)
    requires FontSize in b && b[FontSize].Len?
    ensures EvalNum(b, NumLit(x, Some(Em))) == EvalNum(b, NumLit(b[FontSize].len * x, Some(Pt)))
  {
    FontSizeLookup(b);
    var em := NumLit(x, Some(Em));
    assert EvalNum(b, em).Ok? && EvalNum(b, em).value.len == b[FontSize].len * x;
    var pt := NumLit(b[FontSize].len * x, Some(Pt));
    assert EvalNum(b, pt).value.len == 1.0 * (b[FontSize].len * x);
  }

  /**
    The value each unit gives, for every x: no unit keeps a plain number, `w` and `h` are
    multiples of the canvas width and height, `pt` is x points, and `em` is x times the
    length `font_size` is bound to.
  */
  lemma UnitValues(b: Bindings, x: real)
    ensures EvalNum(b, NumLit(x, None)) == Ok(Num(x))
    ensures EvalNum(b, NumLit(x, Some(W))) == Ok(Len(CanvasWidth * x))
    ensures EvalNum(b, NumLit(x, Some(H))) == Ok(Len(CanvasHeight * x))
    ensures EvalNum(b, NumLit(x, Some(Pt))) == Ok(Len(x))
    ensures FontSize in b && b[FontSize].Len? ==> EvalNum(b, NumLit(x, Some(Em))) == Ok(Len(b[FontSize].len * x))
  {
    FontSizeLookup(b);
    var em := NumLit(x, Some(Em));
    if FontSize in b && b[FontSize].Len? {
      assert EvalNum(b, em).Ok? && EvalNum(b, em).value.len == b[FontSize].len * x;
    }
  }

  /** `w` and `h` measure the canvas: one `w` is its width and one `h` its height, in points. */
  lemma CanvasUnits(b: Bindings, x: real)
    ensures EvalNum(b, NumLit(x, Some(W))) == EvalNum(b, NumLit(CanvasWidth * x, Some(Pt)))
    ensures EvalNum(b, NumLit(x, Some(H))) == EvalNum(b, NumLit(CanvasHeight * x, Some(Pt)))
  {
    UnitValues(b, x);
    UnitValues(b, CanvasWidth * x);
    UnitValues(b, CanvasHeight * x);
  }

  // Blocks.

  /** The statements run one after the other, the first failure stopping the run. */
  function ExecAll(b: Bindings, ss: seq<Stmt>): Result<Bindings, Failure>
    decreases |ss|
  {
    if ss == [] then Ok(b)
    else match Exec(b, ss[0])
      case Err(f) => Err(f)
      case Ok(b') => ExecAll(b', ss[1..])
  }

  /** A completed run binds every name that was bound before, and maybe more. */
  lemma {:induction false} ExecAllKeepsNames(b: Bindings, ss: seq<Stmt>)
    requires ExecAll(b, ss).Ok?
    ensures b.Keys <= ExecAll(b, ss).value.Keys
    decreases |ss|
  {
    if ss != [] {
      ExecAllKeepsNames(Exec(b, ss[0]).value, ss[1..]);
    }
  }

  predicate NoReturn(ss: seq<Stmt>) {
    forall j | 0 <= j < |ss| :: !ss[j].Return?
  }

  /** Without a `return`, a block is the `Box` of the bindings its statements leave behind. */
  lemma {:induction false} BlockWithoutReturn(b: Bindings, blk: Body, i: nat)
    requires i <= |blk.stmts| && NoReturn(blk.stmts[i..])
    ensures Run(b, blk, i) == match ExecAll(b, blk.stmts[i..])
                              case Ok(b') => Ok(Box(b'))
                              case Err(f) => Err(f)
    decreases |blk.stmts| - i
  {
    if i < |blk.stmts| {
      var ss := blk.stmts[i..];
      assert ss[0] == blk.stmts[i] && !ss[0].Return?;
      assert ss[1..] == blk.stmts[i + 1..];
      if Exec(b, blk.stmts[i]).Ok? {
        BlockWithoutReturn(Exec(b, blk.stmts[i]).value, blk, i + 1);
      }
    }
  }

  /**
    The first `return` decides a block: the statements before it run, and its expression
    is evaluated in the bindings they leave; nothing after it runs.
  */
  lemma {:induction false} BlockFirstReturnDecides(b: Bindings, blk: Body, i: nat, k: nat)
    requires i <= k < |blk.stmts| && blk.stmts[k].Return? && NoReturn(blk.stmts[i..k])
    ensures Run(b, blk, i) == match ExecAll(b, blk.stmts[i..k])
                              case Ok(b') => Eval(b', blk.stmts[k].expr)
                              case Err(f) => Err(f)
    decreases k - i
  {
    if i < k {
      var ss := blk.stmts[i..k];
      assert ss[0] == blk.stmts[i] && !ss[0].Return?;
      assert ss[1..] == blk.stmts[i + 1..k];
      if Exec(b, blk.stmts[i]).Ok? {
        BlockFirstReturnDecides(Exec(b, blk.stmts[i]).value, blk, i + 1, k);
      }
    } else {
      assert blk.stmts[i..k] == [];
    }
  }

  /** Two blocks that agree up to their first `return` evaluate alike, whatever follows it. */
  lemma StatementsAfterReturnIgnored(b: Bindings, blk: Body, other: Body, k: nat)
    requires k < |blk.stmts| && k < |other.stmts| && blk.stmts[..k + 1] == other.stmts[..k + 1]
    requires blk.stmts[k].Return? && NoReturn(blk.stmts[..k])
    ensures Eval(b, Term.Block(blk)) == Eval(b, Term.Block(other))
  {
    assert blk.stmts[0..k] == blk.stmts[..k] && other.stmts[0..k] == other.stmts[..k];
    assert blk.stmts[..k] == other.stmts[..k];
    assert blk.stmts[k] == blk.stmts[..k + 1][k] == other.stmts[k];
    BlockFirstReturnDecides(b, blk, 0, k);
    BlockFirstReturnDecides(b, other, 0, k);
  }

  /**
    Scoping, on one environment: a block that rebinds `x` sees its own binding, the caller
    keeps its own; a block that shrinks `font_size` changes what an `em` is inside it only.
  */
  method ScopingExample() returns (inside: Result<Val, Failure>, outside: Result<Val, Failure>,
                                   emInside: Result<Val, Failure>, emOutside: Result<Val, Failure>)
    ensures inside == Ok(Num(2.0)) && outside == Ok(Num(1.0))
    ensures emInside == Ok(Len(20.0)) && emOutside == Ok(Len(216.0))
  {
    var env := new Env();
    var _ := EvalAssign(env, "x", Number(NumLit(1.0, None)));
    ghost var b1 := env.bindings;
    assert b1 == InitialBindings()["x" := Num(1.0)];
    var x := Path(["x"]);
    var blk := Body([Assign("x", Number(NumLit(2.0, None))), Return(Term.Idents(x))]);
    assert Exec(b1, blk.stmts[0]) == Ok(b1["x" := Num(2.0)]);
    assert Run(b1["x" := Num(2.0)], blk, 1) == Ok(Num(2.0));
    inside := EvalExpr(env, Term.Block(blk));
    outside := EvalExpr(env, Term.Idents(x));
    var twoEm := Number(NumLit(2.0, Some(Em)));
    var shrink := Body([Assign(FontSize, Number(NumLit(10.0, Some(Pt)))), Return(twoEm)]);
    ghost var b2 := b1[FontSize := Len(10.0)];
    assert Exec(b1, shrink.stmts[0]) == Ok(b2);
    FontSizeLookup(b2);
    assert Run(b2, shrink, 1) == Ok(Len(20.0));
    emInside := EvalExpr(env, Term.Block(shrink));
    FontSizeLookup(b1);
    emOutside := EvalExpr(env, twoEm);
  }
}

=== FILE: raw_literal.dfy ===
/**
  The decoder for raw string literals, `unescape_raw_string_literal` in src/parser.rs.

  A raw literal is delimited by `---` markers on lines of their own. The decoder drops the
  markers and the newlines next to them, takes the indentation width from the line of the
  closing marker, and removes that many leading spaces from every line in between.
  `UnescapeRawStringLiteral` is the loop of the source, which moves a cursor `left` over
  the text line by line; it is proved equal to `RawDecoded`, which splits the text into
  lines and strips each one. The source stops with a panic where the literal is not
  well formed; here each such stop is an `Err` naming its cause.
*/
module RawLiteral {
  import opened Wrappers

  /** Why the decoder stops. */
  datatype RawError =
    | TooShort               // fewer than 7 characters: `literal.len() - 7` underflows
    | NoNewline              // no newline between the markers
    | NoNewlineAfterOpening  // the opening `---` is not followed by a newline
    | SliceOutOfRange        // a slice whose start lies past its end
    | NewlineInIndent        // an interior line no longer than the indentation
    | NonSpaceInIndent       // a non-space among the first `indent` characters of a line

  /** `str::find` for one character: the first index where `c` occurs. */
  function FirstIndexOf(s: string, c: char): (r: Option<nat>)
    ensures r.Some? ==> r.value < |s| && s[r.value] == c && c !in s[..r.value]
    ensures r.None? ==> c !in s
  {
    if s == [] then None
    else if s[0] == c then Some(0)
    else match FirstIndexOf(s[1..], c)
      case None => None
      case Some(i) =>
        assert s[..i + 1] == [s[0]] + s[1..][..i];
        Some(i + 1)
  }

  /** `str::rfind` for one character: the last index where `c` occurs. */
  function LastIndexOf(s: string, c: char): (r: Option<nat>)
    ensures r.Some? ==> r.value < |s| && s[r.value] == c && c !in s[r.value + 1..]
    ensures r.None? ==> c !in s
  {
    if s == [] then None
    else if s[|s| - 1] == c then Some(|s| - 1)
    else match LastIndexOf(s[..|s| - 1], c)
      case None => None
      case Some(i) =>
        assert s[i + 1..] == s[..|s| - 1][i + 1..] + [s[|s| - 1]];
        Some(i)
  }

  predicate AllSpaces(s: string) {
    forall j | 0 <= j < |s| :: s[j] == ' '
  }

  /** `chars().take(n)`: at most the first `n` characters. */
  function Take(s: string, n: nat): string {
    if n <= |s| then s[..n] else s
  }

  function Spaces(n: nat): (s: string)
    ensures |s| == n && AllSpaces(s)
  {
    if n == 0 then [] else [' '] + Spaces(n - 1)
  }

  // Lines.

  /** The text of `lines` with a newline between each two of them. */
  function JoinLines(lines: seq<string>): string
    requires |lines| >= 1
  {
    if |lines| == 1 then lines[0] else lines[0] + "\n" + JoinLines(lines[1..])
  }

  predicate NoNewlines(lines: seq<string>) {
    forall j | 0 <= j < |lines| :: '\n' !in lines[j]
  }

  /** The lines of `s`: the pieces between its newlines, one more than it has newlines. */
  function SplitLines(s: string): (lines: seq<string>)
    ensures |lines| >= 1 && NoNewlines(lines)
    ensures JoinLines(lines) == s
    decreases |s|
  {
    match FirstIndexOf(s, '\n')
    case None => [s]
    case Some(i) =>
      var rest := SplitLines(s[i + 1..]);
      assert s == s[..i] + "\n" + s[i + 1..];
      [s[..i]] + rest
  }

  /** Splitting undoes joining when no line holds a newline. */
  lemma {:induction false} SplitJoin(lines: seq<string>)
    requires |lines| >= 1 && NoNewlines(lines)
    ensures SplitLines(JoinLines(lines)) == lines
  {
    if |lines| > 1 {
      var s := JoinLines(lines);
      var head := lines[0];
      assert s == head + "\n" + JoinLines(lines[1..]);
      assert s[|head|] == '\n';
      assert s[..|head|] == head;
      assert FirstIndexOf(s, '\n') == Some(|head|);
      assert s[|head| + 1..] == JoinLines(lines[1..]);
      SplitJoin(lines[1..]);
    } else {
      assert FirstIndexOf(lines[0], '\n').None?;
    }
  }

  // Stripping the indentation.

  /** An interior line: passed through when empty, otherwise `indent` characters shorter. */
  function StripInterior(line: string, indent: nat): Result<string, RawError>
  {
    if line == [] then Ok("\n")
    else if |line| <= indent then Err(NewlineInIndent)
    else if !AllSpaces(line[..indent]) then Err(NonSpaceInIndent)
    else Ok(line[indent..] + "\n")
  }

  /** The last line before the closing marker, which has no newline of its own. */
  function StripFinal(line: string, indent: nat): Result<string, RawError>
  {
    if !AllSpaces(Take(line, indent)) then Err(NonSpaceInIndent)
    else if |line| < indent then Err(SliceOutOfRange)
    else Ok(line[indent..])
  }

  /** Every line stripped, in order; the first line that fails decides the error. */
  function StripLines(lines: seq<string>, indent: nat): Result<string, RawError>
    requires |lines| >= 1
  {
    if |lines| == 1 then StripFinal(lines[0], indent)
    else match StripInterior(lines[0], indent)
      case Err(e) => Err(e)
      case Ok(head) => Prepend(head, StripLines(lines[1..], indent))
  }

  /**
    What `unescape_raw_string_literal` returns: the text between the markers, without the
    newline after the opening marker and the last newline, stripped line by line by the
    width of what follows the last newline (the indentation of the closing marker).
  */
  function RawDecoded(literal: string): Result<string, RawError>
  {
    if |literal| < 7 then Err(TooShort)
    else
      var sliced := literal[3..|literal| - 3];
      match LastIndexOf(sliced, '\n')
      case None => Err(NoNewline)
      case Some(last) =>
        var indent := |sliced| - last - 1;
        if sliced[0] != '\n' then Err(NoNewlineAfterOpening)
        else if last == 0 then Err(SliceOutOfRange)
        else StripLines(SplitLines(sliced[1..last]), indent)
  }

  /**
    The three checks before the loop: a literal of fewer than 7 characters, one with no
    newline between its markers, and one whose opening `---` is not followed by a newline
    are rejected; a literal that decodes passes all three.
  */
  lemma RawPreludeRejections(literal: string)
    ensures |literal| < 7 ==> RawDecoded(literal) == Err(TooShort)
    ensures |literal| >= 7 && '\n' !in literal[3..|literal| - 3] ==> RawDecoded(literal) == Err(NoNewline)
    ensures |literal| >= 7 && '\n' in literal[3..|literal| - 3] && literal[3] != '\n'
            ==> RawDecoded(literal) == Err(NoNewlineAfterOpening)
    ensures RawDecoded(literal).Ok? ==> |literal| >= 7 && literal[3] == '\n' && '\n' in literal[3..|literal| - 3]
  {
    if |literal| >= 7 {
      var sliced := literal[3..|literal| - 3];
      assert sliced[0] == literal[3];
    }
  }

  /** The loop of `unescape_raw_string_literal`, cursor `left` moving from line to line. */
  method UnescapeRawStringLiteral(literal: string) returns (r: Result<string, RawError>)
    ensures r == RawDecoded(literal)
  {
    if |literal| < 7 {
      return Err(TooShort);
    }
    var out := "";
    var sliced := literal[3..|literal| - 3];
    var lastNewline: nat;
    match LastIndexOf(sliced, '\n') {
      case None => return Err(NoNewline);
      case Some(k) => lastNewline := k;
    }
    var indent := |sliced| - lastNewline - 1;
    if sliced[0] != '\n' {
      return Err(NoNewlineAfterOpening);
    }
    if lastNewline == 0 {
      return Err(SliceOutOfRange);
    }
    var left := sliced[1..lastNewline];
    ghost var goal := StripLines(SplitLines(left), indent);
    PrependNothing(goal);
    var next := FirstIndexOf(left, '\n');
    while next.Some?
      invariant next == FirstIndexOf(left, '\n')
      invariant Prepend(out, StripLines(SplitLines(left), indent)) == goal
      decreases |left|
    {
      var index := next.value;
      StripFirstLine(left, index, indent);
      InteriorAtCursor(left, index, indent);
      if index == 0 {
        PrependPrepend(out, "\n", StripLines(SplitLines(left[index + 1..]), indent));
        out := out + "\n";
      } else {
        if index <= indent {
          return Err(NewlineInIndent);
        }
        if !AllSpaces(Take(left, indent)) {
          return Err(NonSpaceInIndent);
        }
        PrependPrepend(out, left[indent..index + 1], StripLines(SplitLines(left[index + 1..]), indent));
        out := out + left[indent..index + 1];
      }
      left := left[index + 1..];
      next := FirstIndexOf(left, '\n');
    }
    assert SplitLines(left) == [left];
    if !AllSpaces(Take(left, indent)) {
      return Err(NonSpaceInIndent);
    }
    if |left| < indent {
      return Err(SliceOutOfRange);
    }
    out := out + left[indent..];
    return Ok(out);
  }

  /** Stripping the lines from the cursor on: the line up to the first newline, then the rest. */
  lemma StripFirstLine(left: string, index: nat, indent: nat)
    requires FirstIndexOf(left, '\n') == Some(index)
    ensures StripLines(SplitLines(left), indent)
         == match StripInterior(left[..index], indent)
            case Err(e) => Err(e)
            case Ok(head) => Prepend(head, StripLines(SplitLines(left[index + 1..]), indent))
  {
    var lines := SplitLines(left);
    assert lines == [left[..index]] + SplitLines(left[index + 1..]);
    assert lines[1..] == SplitLines(left[index + 1..]);
  }

  /** The checks of the loop body, read on the cursor, are those of `StripInterior` on the line. */
  lemma InteriorAtCursor(left: string, index: nat, indent: nat)
    requires index < |left| && left[index] == '\n'
    ensures StripInterior(left[..index], indent)
         == if index == 0 then Ok("\n")
            else if index <= indent then Err(NewlineInIndent)
            else if !AllSpaces(Take(left, indent)) then Err(NonSpaceInIndent)
            else Ok(left[indent..index + 1])
  {
    var line := left[..index];
    if index > indent {
      assert Take(left, indent) == line[..indent];
      assert left[indent..index + 1] == line[indent..] + "\n";
    }
  }

  // What the decoder computes.

  /** The rules a line between the markers must follow, for `indent` the closing marker's indentation. */
  predicate InteriorLineOk(line: string, indent: nat) {
    line == [] || (|line| > indent && AllSpaces(line[..indent]))
  }

  predicate FinalLineOk(line: string, indent: nat) {
    |line| >= indent && AllSpaces(line[..indent])
  }

  /** A line without its indentation; an empty interior line stays empty. */
  function Dedent(line: string, indent: nat): string {
    if |line| <= indent then [] else line[indent..]
  }

  function DedentAll(lines: seq<string>, indent: nat): (r: seq<string>)
    ensures |r| == |lines|
    ensures forall j | 0 <= j < |lines| :: r[j] == Dedent(lines[j], indent)
  {
    if lines == [] then [] else [Dedent(lines[0], indent)] + DedentAll(lines[1..], indent)
  }

  /**
    Stripping succeeds exactly when every interior line is empty or longer than the
    indentation and starts with that many spaces, and the last line is at least that long
    and starts with that many spaces. It then yields the lines, each without its
    indentation, with the newlines between them kept.
  */
  lemma {:induction false} StripLinesMeaning(lines: seq<string>, indent: nat)
    requires |lines| >= 1
    ensures StripLines(lines, indent).Ok?
        <==> (forall j | 0 <= j < |lines| - 1 :: InteriorLineOk(lines[j], indent))
             && FinalLineOk(lines[|lines| - 1], indent)
    ensures StripLines(lines, indent).Ok?
        ==> StripLines(lines, indent).value == JoinLines(DedentAll(lines, indent))
  {
    if |lines| == 1 {
      StripFinalMeaning(lines[0], indent);
    } else {
      var rest := lines[1..];
      StripLinesMeaning(rest, indent);
      StripInteriorMeaning(lines[0], indent);
      assert rest[|rest| - 1] == lines[|lines| - 1];
      assert (forall j | 0 <= j < |lines| - 1 :: InteriorLineOk(lines[j], indent))
         <==> InteriorLineOk(lines[0], indent)
              && (forall j | 0 <= j < |rest| - 1 :: InteriorLineOk(rest[j], indent)) by {
        assert forall j | 0 <= j < |rest| - 1 :: rest[j] == lines[j + 1];
      }
      var d := DedentAll(lines, indent);
      assert d[1..] == DedentAll(rest, indent);
    }
  }

  /** The final line's indent characters are checked before it is sliced. */
  lemma StripFinalChecksIndentFirst()
    ensures StripFinal("x", 2) == Err(NonSpaceInIndent)
  {
    assert Take("x", 2) == "x" && "x"[0] != ' ';
  }

  lemma StripInteriorMeaning(line: string, indent: nat)
    ensures StripInterior(line, indent).Ok? <==> InteriorLineOk(line, indent)
    ensures StripInterior(line, indent).Ok? ==> StripInterior(line, indent).value == Dedent(line, indent) + "\n"
  {
  }

  lemma StripFinalMeaning(line: string, indent: nat)
    ensures StripFinal(line, indent).Ok? <==> FinalLineOk(line, indent)
    ensures StripFinal(line, indent).Ok? ==> StripFinal(line, indent).value == Dedent(line, indent)
  {
  }

  /** A raw literal whose closing marker sits `indent` spaces in, holding `lines` indented by that much. */
  function RawEncoded(lines: seq<string>, indent: nat): string
    requires |lines| >= 1
  {
    "---\n" + JoinLines(IndentAll(lines, indent)) + "\n" + Spaces(indent) + "---"
  }

  /** One line indented to the closing marker's column; an empty interior line stays empty. */
  function IndentLine(line: string, indent: nat, isLast: bool): string {
    if line == [] && !isLast then [] else Spaces(indent) + line
  }

  function IndentAll(lines: seq<string>, indent: nat): (r: seq<string>)
    ensures |r| == |lines|
    ensures forall j | 0 <= j < |lines| :: r[j] == IndentLine(lines[j], indent, j == |lines| - 1)
  {
    seq(|lines|, j requires 0 <= j < |lines| => IndentLine(lines[j], indent, j == |lines| - 1))
  }

  lemma IndentLineFacts(line: string, indent: nat, isLast: bool)
    requires '\n' !in line
    ensures '\n' !in IndentLine(line, indent, isLast)
    ensures if isLast then FinalLineOk(IndentLine(line, indent, isLast), indent)
            else InteriorLineOk(IndentLine(line, indent, isLast), indent)
    ensures Dedent(IndentLine(line, indent, isLast), indent) == line
  {
    var sp := Spaces(indent);
    if !(line == [] && !isLast) {
      var r := sp + line;
      assert r[..indent] == sp;
      assert r[indent..] == line;
      assert forall c | c in r :: c in sp || c in line;
    }
  }

  lemma IndentAllFacts(lines: seq<string>, indent: nat)
    requires |lines| >= 1 && NoNewlines(lines)
    ensures NoNewlines(IndentAll(lines, indent))
    ensures forall j | 0 <= j < |lines| - 1 :: InteriorLineOk(IndentAll(lines, indent)[j], indent)
    ensures FinalLineOk(IndentAll(lines, indent)[|lines| - 1], indent)
    ensures DedentAll(IndentAll(lines, indent), indent) == lines
  {
    var r := IndentAll(lines, indent);
    forall j | 0 <= j < |lines|
      ensures '\n' !in r[j] && Dedent(r[j], indent) == lines[j]
      ensures j < |lines| - 1 ==> InteriorLineOk(r[j], indent)
      ensures j == |lines| - 1 ==> FinalLineOk(r[j], indent)
    {
      IndentLineFacts(lines[j], indent, j == |lines| - 1);
    }
  }

  /** The last newline of `x`, newline, `y` is the middle one when `y` has none. */
  lemma {:induction false} LastNewlineBefore(x: string, y: string)
    requires '\n' !in y
    ensures LastIndexOf(x + "\n" + y, '\n') == Some(|x|)
    decreases |y|
  {
    var s := x + "\n" + y;
    if y != [] {
      var y' := y[..|y| - 1];
      assert s[|s| - 1] == y[|y| - 1];
      assert s[..|s| - 1] == x + "\n" + y';
      assert forall c | c in y' :: c in y;
      LastNewlineBefore(x, y');
    }
  }

  /** How `RawDecoded` reads a literal whose checks all pass. */
  lemma RawDecodedAccepted(literal: string, last: nat)
    requires |literal| >= 7
    requires LastIndexOf(literal[3..|literal| - 3], '\n') == Some(last)
    requires literal[3] == '\n' && last > 0
    ensures RawDecoded(literal)
         == StripLines(SplitLines(literal[3..|literal| - 3][1..last]), |literal| - 6 - last - 1)
  {
    var sliced := literal[3..|literal| - 3];
    assert sliced[0] == '\n';
    assert |sliced| - last - 1 == |literal| - 6 - last - 1;
  }

  lemma Unwrap<T>(a: seq<T>, m: seq<T>, c: seq<T>)
    ensures (a + m + c)[|a|..|a + m + c| - |c|] == m
  {
  }

  /** The text between the markers of a literal built from `body` and `indent`. */
  lemma ShapeSlice(body: string, indent: nat)
    ensures var literal := "---\n" + body + "\n" + Spaces(indent) + "---";
            |literal| >= 7 && literal[3] == '\n'
            && literal[3..|literal| - 3] == "\n" + body + "\n" + Spaces(indent)
  {
    var inner := "\n" + body + "\n" + Spaces(indent);
    var literal := "---\n" + body + "\n" + Spaces(indent) + "---";
    assert literal == "---" + inner + "---";
    Unwrap("---", inner, "---");
  }

  /** A literal `---`, newline, body, newline, `indent` spaces, `---` strips the body by `indent`. */
  lemma RawDecodedShape(body: string, indent: nat)
    ensures RawDecoded("---\n" + body + "\n" + Spaces(indent) + "---")
         == StripLines(SplitLines(body), indent)
  {
    ShapeSlice(body, indent);
    RawDecodedBetween("---\n" + body + "\n" + Spaces(indent) + "---", body, indent);
  }

  lemma RawDecodedBetween(literal: string, body: string, indent: nat)
    requires |literal| >= 7 && literal[3] == '\n'
    requires literal[3..|literal| - 3] == "\n" + body + "\n" + Spaces(indent)
    ensures RawDecoded(literal) == StripLines(SplitLines(body), indent)
  {
    var last := |body| + 1;
    assert LastIndexOf(literal[3..|literal| - 3], '\n') == Some(last) by {
      var sp := Spaces(indent);
      assert '\n' !in sp by {
        assert forall c | c in sp :: c == ' ';
      }
      LastNewlineBefore("\n" + body, sp);
    }
    assert literal[3..|literal| - 3][1..last] == body by {
      Middle("\n", body, "\n" + Spaces(indent));
      assert "\n" + body + "\n" + Spaces(indent) == "\n" + body + ("\n" + Spaces(indent));
    }
    RawDecodedAccepted(literal, last);
  }

  lemma Middle<T>(a: seq<T>, m: seq<T>, c: seq<T>)
    ensures (a + m + c)[|a|..|a| + |m|] == m
  {
  }

  /**
    Decoding inverts indenting: any text, indented line by line to the column of the
    closing marker (empty interior lines left empty), decodes back to itself.
  */
  lemma RawRoundTrip(lines: seq<string>, indent: nat)
    requires |lines| >= 1 && NoNewlines(lines)
    ensures RawDecoded(RawEncoded(lines, indent)) == Ok(JoinLines(lines))
  {
    RawDecodedShape(JoinLines(IndentAll(lines, indent)), indent);
    IndentAllFacts(lines, indent);
    SplitJoin(IndentAll(lines, indent));
    StripLinesMeaning(IndentAll(lines, indent), indent);
  }

  // The unit tests of src/parser.rs, as instances of the round trip.

  lemma StripsDashesTest()
    ensures RawDecoded("---\nhi\n---") == Ok("hi")
  {
    StripsDashesEncoded();
    RawRoundTrip(["hi"], 0);
  }

  lemma StripsDashesEncoded()
    ensures NoNewlines(["hi"]) && JoinLines(["hi"]) == "hi"
    ensures RawEncoded(["hi"], 0) == "---\nhi\n---"
  {
    assert IndentAll(["hi"], 0)[0] == Spaces(0) + "hi" == "hi";
    assert IndentAll(["hi"], 0) == ["hi"];
  }

  lemma StripsIndentTest()
    ensures RawDecoded("---\n  hi\n  ---") == Ok("hi")
  {
    StripsIndentEncoded();
    RawRoundTrip(["hi"], 2);
  }

  lemma StripsIndentEncoded()
    ensures NoNewlines(["hi"]) && JoinLines(["hi"]) == "hi"
    ensures RawEncoded(["hi"], 2) == "---\n  hi\n  ---"
  {
    assert Spaces(2) == "  ";
    assert IndentAll(["hi"], 2)[0] == Spaces(2) + "hi" == "  hi";
    assert IndentAll(["hi"], 2) == ["  hi"];
  }

  lemma PreservesNewlinesTest()
    ensures RawDecoded("---\n  hi\n    there\n  ---") == Ok("hi\n  there")
  {
    PreservesNewlinesEncoded();
    RawRoundTrip(["hi", "  there"], 2);
  }

  lemma PreservesNewlinesEncoded()
    ensures NoNewlines(["hi", "  there"])
    ensures RawEncoded(["hi", "  there"], 2) == "---\n  hi\n    there\n  ---"
    ensures JoinLines(["hi", "  there"]) == "hi\n  there"
  {
    PreservesNewlinesBody();
    JoinTwo("hi", "  there");
    assert "---\n" + "  hi\n    there" + "\n" + "  " + "---" == "---\n  hi\n    there\n  ---";
  }

  lemma PreservesNewlinesBody()
    ensures JoinLines(IndentAll(["hi", "  there"], 2)) == "  hi\n    there"
  {
    var indented := IndentAll(["hi", "  there"], 2);
    TwoSpaces();
    assert indented[0] == "  hi" && indented[1] == "    there";
    assert indented == ["  hi", "    there"];
    JoinTwo("  hi", "    there");
  }

  lemma JoinTwo(a: string, b: string)
    ensures JoinLines([a, b]) == a + "\n" + b
  {
    assert [a, b][1..] == [b];
  }

  lemma JoinThree(a: string, b: string, c: string)
    ensures JoinLines([a, b, c]) == a + "\n" + b + "\n" + c
  {
    assert [a, b, c][1..] == [b, c];
    JoinTwo(b, c);
  }

  lemma AllowsBlankLinesTest()
    ensures RawDecoded("---\n  hi\n\n  there\n  ---") == Ok("hi\n\nthere")
  {
    AllowsBlankLinesEncoded();
    RawRoundTrip(["hi", "", "there"], 2);
  }

  lemma AllowsBlankLinesEncoded()
    ensures NoNewlines(["hi", "", "there"])
    ensures RawEncoded(["hi", "", "there"], 2) == "---\n  hi\n\n  there\n  ---"
    ensures JoinLines(["hi", "", "there"]) == "hi\n\nthere"
  {
    AllowsBlankLinesBody();
    JoinThree("hi", "", "there");
    TwoSpaces();
    assert RawEncoded(["hi", "", "there"], 2) == "---\n" + "  hi\n\n  there" + "\n" + "  " + "---";
    assert "---\n" + "  hi\n\n  there" + "\n" + "  " + "---" == "---\n  hi\n\n  there\n  ---" by {
      assert ("---\n" + "  hi\n\n  there" + "\n" + "  " + "---")[..] == "---\n  hi\n\n  there\n  ---";
    }
  }

  lemma AllowsBlankLinesBody()
    ensures JoinLines(IndentAll(["hi", "", "there"], 2)) == "  hi\n\n  there"
  {
    var lines := ["hi", "", "there"];
    var indented := IndentAll(lines, 2);
    TwoSpaces();
    assert indented[0] == "  hi" && indented[1] == "" && indented[2] == "  there";
    assert indented == ["  hi", "", "  there"];
    JoinThree("  hi", "", "  there");
  }

  lemma TwoSpaces()
    ensures Spaces(2) == "  "
  {
  }

  // Where the decoder stops.

  /** With nothing between the markers but one newline, the slice `[1..0]` is out of range. */
  lemma EmptyBodyRejected()
    ensures RawDecoded("---\n---") == Err(SliceOutOfRange)
  {
    var sliced := "---\n---"[3..4];
    assert sliced == "\n";
    assert LastIndexOf(sliced, '\n') == Some(0);
  }

  /**
    An interior line holding only the indentation is refused, although a blank line is
    accepted: only a line with no characters at all escapes the length check.
  */
  lemma SpacesOnlyLineRejected(indent: nat)
    requires indent >= 1
    ensures StripLines([Spaces(indent), "x"], indent) == Err(NewlineInIndent)
  {
  }

  /**
    The last line before the closing marker is shorter than the indentation when it is
    empty, so a literal ending in a blank line, with an indented closing marker, is refused.
  */
  lemma TrailingBlankLineRejected()
    ensures RawDecoded("---\n  hi\n\n  ---") == Err(SliceOutOfRange)
  {
    TrailingBlankLiteral();
    RawDecodedShape("  hi\n", 2);
    TrailingBlankLines();
  }

  lemma TrailingBlankLiteral()
    ensures "---\n  hi\n\n  ---" == "---\n" + "  hi\n" + "\n" + Spaces(2) + "---"
  {
    assert Spaces(2) == "  ";
  }

  lemma TrailingBlankLines()
    ensures StripLines(SplitLines("  hi\n"), 2) == Err(SliceOutOfRange)
  {
    assert JoinLines(["  hi", ""]) == "  hi\n";
    SplitJoin(["  hi", ""]);
    assert ["  hi", ""][1..] == [""];
  }
}

=== FILE: string_literal.dfy ===
/**
  The decoder for quoted string literals, `unescape_string_literal` in src/parser.rs.

  The decoder is a loop over the characters between the quotes that drives a three-state
  escape machine (`EscState`) and appends to an output buffer. `UnescapeStringLiteral` is
  that loop. It is proved equal to `Unescaped`, a recursive-descent reading of the same
  literal syntax written independently of the state machine, and the properties of the
  decoder are lemmas about `Decoded`.
*/
module StringLiteral {
  import opened Wrappers

  /** The two errors the decoder reports; `Message` gives their text. */
  datatype LexError = InvalidEscape(code: char) | InvalidCodePoint(codepoint: nat)

  /** The states of the escape machine: after `\u` it holds the value so far and the digits left. */
  datatype EscState = Normal | Escape | Unicode(codepoint: nat, digitsLeft: nat)

  /** A `\u` escape holds at most this many hexadecimal digits. */
  const MaxUnicodeDigits: nat := 6

  /** Unicode scalar values (Unicode Standard section 3.9, D76): no surrogates, nothing past U+10FFFF. */
  predicate IsScalarValue(cp: nat) {
    cp < 0xD800 || 0xE000 <= cp < 0x11_0000
  }

  /** `char::from_u32`, with the decoder's error for a value that is not a scalar value. */
  function CharFromCodepoint(cp: nat): (r: Result<char, LexError>)
    ensures r.Ok? <==> IsScalarValue(cp)
    ensures r.Ok? ==> r.value as int == cp
    ensures r.Err? ==> r.error == InvalidCodePoint(cp)
  {
    if IsScalarValue(cp) then Ok(cp as char) else Err(InvalidCodePoint(cp))
  }

  /** `char::is_digit(16)`: ASCII digits and the letters a-f in either case. */
  predicate IsHexDigit(c: char) {
    '0' <= c <= '9' || 'a' <= c <= 'f' || 'A' <= c <= 'F'
  }

  /** `char::to_digit(16)` on a hexadecimal digit. */
  function HexDigitValue(c: char): (d: nat)
    requires IsHexDigit(c)
    ensures d < 16
  {
    if c <= '9' then c as int - '0' as int
    else if c <= 'F' then c as int - 'A' as int + 10
    else c as int - 'a' as int + 10
  }

  /**
    `to_digit(16)` ignores case, and upper-case hex digits are exactly the digits
    `HexDigitChar` writes: a lower-case letter has the value of its upper-case form.
  */
  lemma HexDigitCaseInsensitive(c: char)
    requires IsHexDigit(c)
    ensures var upper := if 'a' <= c <= 'f' then (c as int - 32) as char else c;
            IsHexDigit(upper) && HexDigitValue(c) == HexDigitValue(upper)
            && HexDigitChar(HexDigitValue(c)) == upper
  {
  }

  predicate AllHex(digits: string) {
    forall j | 0 <= j < |digits| :: IsHexDigit(digits[j])
  }

  /** Folds digits into a value from the left, each step computing value * 16 + digit. */
  function AccumulateHex(v: nat, digits: string): nat
    requires AllHex(digits)
    decreases |digits|
  {
    if digits == [] then v else AccumulateHex(v * 16 + HexDigitValue(digits[0]), digits[1..])
  }

  function Pow16(n: nat): (p: nat)
    ensures p >= 1
  {
    if n == 0 then 1 else 16 * Pow16(n - 1)
  }

  /** The number of hexadecimal digits at the front of `t`, counting no more than `limit`. */
  function HexRun(t: string, limit: nat): (k: nat)
    ensures k <= limit && k <= |t|
    ensures AllHex(t[..k])
    ensures k < limit && k < |t| ==> !IsHexDigit(t[k])
  {
    if limit == 0 || t == [] || !IsHexDigit(t[0]) then 0
    else
      var k' := HexRun(t[1..], limit - 1);
      assert t[..k' + 1] == [t[0]] + t[1..][..k'];
      k' + 1
  }

  /**
    Reference reading of the characters between the quotes, by recursive descent: plain
    characters are copied; `\\`, `\"` and `\n` stand for backslash, quote and newline;
    `\u` starts a code-point escape (`UnicodeEscape`); a backslash at the very end is
    dropped; a backslash before any other character is an error.
  */
  function Decoded(t: string): Result<string, LexError>
    decreases |t|
  {
    if t == [] then Ok([])
    else if t[0] != '\\' then Prepend([t[0]], Decoded(t[1..]))
    else if |t| == 1 then Ok([])
    else if t[1] == '\\' || t[1] == '"' then Prepend([t[1]], Decoded(t[2..]))
    else if t[1] == 'n' then Prepend(['\n'], Decoded(t[2..]))
    else if t[1] == 'u' then UnicodeEscape(0, MaxUnicodeDigits, t[2..])
    else Err(InvalidEscape(t[1]))
  }

  /**
    The rest of a code-point escape whose value so far is `v` and which may take `left`
    more digits: it takes as many hexadecimal digits as it may, and the character after
    them (if any) is copied as it is, whatever it is.
  */
  function UnicodeEscape(v: nat, left: nat, t: string): Result<string, LexError>
    decreases |t|
  {
    var k := HexRun(t, left);
    var cp := AccumulateHex(v, t[..k]);
    if !IsScalarValue(cp) then Err(InvalidCodePoint(cp))
    else if k == |t| then Ok([cp as char])
    else Prepend([cp as char, t[k]], Decoded(t[k + 1..]))
  }

  /** What `unescape_string_literal` returns for the literal `s`, quotes included. */
  function Unescaped(s: string): Result<string, LexError>
    requires |s| >= 2
  {
    Decoded(s[1..|s| - 1])
  }

  /** What is left to produce when the machine is in state `st` with `t` still to read. */
  function Resume(st: EscState, t: string): Result<string, LexError>
  {
    match st
    case Normal => Decoded(t)
    case Escape => Decoded(['\\'] + t)
    case Unicode(v, left) => UnicodeEscape(v, left, t)
  }

  /** One more hexadecimal digit inside a `\u` escape: the value becomes v * 16 + d. */
  lemma UnicodeEscapeDigit(v: nat, left: nat, c: char, t: string)
    requires IsHexDigit(c) && left > 0
    ensures UnicodeEscape(v, left, [c] + t) == UnicodeEscape(v * 16 + HexDigitValue(c), left - 1, t)
  {
    var ct := [c] + t;
    assert ct[1..] == t;
    var k := HexRun(t, left - 1);
    assert HexRun(ct, left) == k + 1;
    assert ct[..k + 1] == [c] + t[..k];
    assert ct[k + 1..] == t[k..];
    assert (ct[..k + 1])[1..] == t[..k];
  }

  /** Reading one character in state `Normal`. */
  lemma ResumeNormal(ch: char, rest: string)
    ensures Resume(Normal, [ch] + rest)
         == if ch == '\\' then Resume(Escape, rest) else Prepend([ch], Resume(Normal, rest))
  {
    assert ([ch] + rest)[1..] == rest;
  }

  /** Reading one character in state `Escape`. */
  lemma ResumeEscape(ch: char, rest: string)
    ensures Resume(Escape, [ch] + rest)
         == if ch == '\\' || ch == '"' then Prepend([ch], Resume(Normal, rest))
            else if ch == 'n' then Prepend(['\n'], Resume(Normal, rest))
            else if ch == 'u' then Resume(Unicode(0, MaxUnicodeDigits), rest)
            else Err(InvalidEscape(ch))
  {
    assert (['\\'] + ([ch] + rest))[2..] == rest;
  }

  /** Reading one character in state `Unicode`: a digit is taken while digits are left, anything else ends the escape. */
  lemma ResumeUnicode(v: nat, left: nat, ch: char, rest: string)
    ensures Resume(Unicode(v, left), [ch] + rest)
         == if IsHexDigit(ch) && left > 0 then Resume(Unicode(v * 16 + HexDigitValue(ch), left - 1), rest)
            else match CharFromCodepoint(v)
                 case Ok(c) => Prepend([c, ch], Resume(Normal, rest))
                 case Err(e) => Err(e)
  {
    if IsHexDigit(ch) && left > 0 {
      UnicodeEscapeDigit(v, left, ch, rest);
    } else {
      var t := [ch] + rest;
      assert HexRun(t, left) == 0;
      assert t[..0] == [] && t[1..] == rest;
    }
  }

  /** The end of the input in each state: an open `\u` escape is flushed, a lone backslash is dropped. */
  lemma ResumeEnd(st: EscState)
    ensures Resume(st, [])
         == match st
            case Unicode(v, _) =>
              (match CharFromCodepoint(v) case Ok(c) => Ok([c]) case Err(e) => Err(e))
            case _ => Ok([])
  {
    if st.Unicode? {
      var t: string := [];
      assert HexRun(t, st.digitsLeft) == 0 && t[..0] == [];
    }
  }

  /** The escape machine of `unescape_string_literal`, run over the characters between the quotes. */
  method UnescapeStringLiteral(s: string) returns (r: Result<string, LexError>)
    requires |s| >= 2
    ensures r == Unescaped(s)
  {
    var inner := s[1..|s| - 1];
    ghost var goal := Decoded(inner);
    var out := "";
    var st := Normal;
    var i := 0;
    assert inner[i..] == inner;
    PrependNothing(goal);
    while i < |inner|
      invariant 0 <= i <= |inner|
      invariant Prepend(out, Resume(st, inner[i..])) == goal
    {
      var ch := inner[i];
      ghost var rest := inner[i + 1..];
      assert inner[i..] == [ch] + rest;
      match st {
        case Normal =>
          ResumeNormal(ch, rest);
          if ch == '\\' {
            st := Escape;
          } else {
            PrependPrepend(out, [ch], Resume(Normal, rest));
            out := out + [ch];
          }
        case Escape =>
          ResumeEscape(ch, rest);
          if ch == '\\' || ch == '"' {
            PrependPrepend(out, [ch], Resume(Normal, rest));
            out := out + [ch];
            st := Normal;
          } else if ch == 'n' {
            PrependPrepend(out, ['\n'], Resume(Normal, rest));
            out := out + ['\n'];
            st := Normal;
          } else if ch == 'u' {
            st := Unicode(0, MaxUnicodeDigits);
          } else {
            return Err(InvalidEscape(ch));
          }
        case Unicode(cp, left) =>
          ResumeUnicode(cp, left, ch, rest);
          if IsHexDigit(ch) && left > 0 {
            st := Unicode(cp * 16 + HexDigitValue(ch), left - 1);
          } else {
            var c :- CharFromCodepoint(cp);
            PrependPrepend(out, [c, ch], Resume(Normal, rest));
            out := out + [c, ch];
            st := Normal;
          }
      }
      i := i + 1;
    }
    assert inner[i..] == [];
    ResumeEnd(st);
    if st.Unicode? {
      var c :- CharFromCodepoint(st.codepoint);
      out := out + [c];
    } else {
      assert out + [] == out;
    }
    return Ok(out);
  }

  // Properties of the decoder.

  /** Text without a backslash is copied unchanged and in order, whatever follows it. */
  lemma {:induction false} PlainPrefix(p: string, t: string)
    requires forall j | 0 <= j < |p| :: p[j] != '\\'
    ensures Decoded(p + t) == Prepend(p, Decoded(t))
  {
    if p == [] {
      assert p + t == t;
      PrependNothing(Decoded(t));
    } else {
      assert (p + t)[1..] == p[1..] + t;
      PlainPrefix(p[1..], t);
      PrependPrepend([p[0]], p[1..], Decoded(t));
      assert [p[0]] + p[1..] == p;
    }
  }

  /** A backslash at the very end of the body ends the loop in the escape state, which emits nothing. */
  lemma TrailingBackslashDropped(p: string)
    requires '\\' !in p
    ensures Decoded(p + "\\") == Ok(p)
  {
    PlainPrefix(p, "\\");
    assert p + [] == p;
  }

  /** A literal with no backslash in it decodes to exactly its own characters. */
  lemma PlainTextUnchanged(t: string)
    requires '\\' !in t
    ensures Decoded(t) == Ok(t)
  {
    assert t + [] == t;
    PlainPrefix(t, []);
  }

  /** A backslash before anything but `\`, `"`, `n` or `u` is rejected, naming that character. */
  lemma InvalidEscapeRejected(p: string, c: char, t: string)
    requires forall j | 0 <= j < |p| :: p[j] != '\\'
    requires c !in "\\\"nu"
    ensures Decoded(p + ['\\', c] + t) == Err(InvalidEscape(c))
  {
    assert p + ['\\', c] + t == p + (['\\', c] + t);
    PlainPrefix(p, ['\\', c] + t);
  }

  /** How many digits a `\u` escape takes: all of `digits` when the run stops right after them. */
  lemma {:induction false} HexRunStops(digits: string, t: string, limit: nat)
    requires |digits| <= limit && AllHex(digits)
    requires |digits| == limit || t == [] || !IsHexDigit(t[0])
    ensures HexRun(digits + t, limit) == |digits|
  {
    if digits != [] {
      assert (digits + t)[1..] == digits[1..] + t;
      HexRunStops(digits[1..], t, limit - 1);
    } else {
      assert digits + t == t;
    }
  }

  /**
    The shape of a `\u` escape: up to six hexadecimal digits make one code point, which
    must be a scalar value; the character that ends the escape is copied literally, even
    a backslash or a seventh digit; at the end of the input the escape is flushed.
  */
  lemma UnicodeEscapeForm(digits: string, t: string)
    requires |digits| <= MaxUnicodeDigits && AllHex(digits)
    requires |digits| == MaxUnicodeDigits || t == [] || !IsHexDigit(t[0])
    ensures var cp := AccumulateHex(0, digits);
            Decoded("\\u" + digits + t)
            == if !IsScalarValue(cp) then Err(InvalidCodePoint(cp))
               else if t == [] then Ok([cp as char])
               else Prepend([cp as char, t[0]], Decoded(t[1..]))
  {
    assert "\\u" + digits + t == "\\u" + (digits + t);
    EscapeStart(digits + t);
    EscapeAfterRun(digits, t);
  }

  /** `\\u` hands the rest of the text to `UnicodeEscape` with no digits read yet. */
  lemma EscapeStart(dt: string)
    ensures Decoded("\\u" + dt) == UnicodeEscape(0, MaxUnicodeDigits, dt)
  {
    assert ("\\u" + dt)[2..] == dt;
  }

  /** `UnicodeEscape` on a run of digits that stops where `t` begins. */
  lemma EscapeAfterRun(digits: string, t: string)
    requires |digits| <= MaxUnicodeDigits && AllHex(digits)
    requires |digits| == MaxUnicodeDigits || t == [] || !IsHexDigit(t[0])
    ensures var cp := AccumulateHex(0, digits);
            UnicodeEscape(0, MaxUnicodeDigits, digits + t)
            == if !IsScalarValue(cp) then Err(InvalidCodePoint(cp))
               else if t == [] then Ok([cp as char])
               else Prepend([cp as char, t[0]], Decoded(t[1..]))
  {
    var dt := digits + t;
    HexRunStops(digits, t, MaxUnicodeDigits);
    assert dt[..|digits|] == digits;
    if t != [] {
      assert dt[|digits|] == t[0];
      assert dt[|digits| + 1..] == t[1..];
    } else {
      assert |dt| == |digits|;
    }
  }

  /** Folding `n` digits onto `v` stays below (v + 1) * 16^n. */
  lemma {:induction false} AccumulateHexBound(v: nat, digits: string)
    requires AllHex(digits)
    ensures AccumulateHex(v, digits) < (v + 1) * Pow16(|digits|)
    decreases |digits|
  {
    if digits != [] {
      var d := HexDigitValue(digits[0]);
      var v' := v * 16 + d;
      AccumulateHexBound(v', digits[1..]);
      var p := Pow16(|digits| - 1);
      assert Pow16(|digits|) == 16 * p;
      MultiplyMonotone(v' + 1, 16 * (v + 1), p);
      assert 16 * (v + 1) * p == (v + 1) * (16 * p);
    }
  }

  lemma MultiplyMonotone(a: nat, b: nat, c: nat)
    requires a <= b
    ensures a * c <= b * c
  {
  }

  /**
    The value of a `\u` escape is below 16^6 = 0x1000000, so the `u32` arithmetic of
    `codepoint * 16 + d` never wraps and unbounded integers model it exactly.
  */
  lemma UnicodeValueFitsU32(digits: string)
    requires AllHex(digits) && |digits| <= MaxUnicodeDigits
    ensures AccumulateHex(0, digits) < 0x100_0000
  {
    AccumulateHexBound(0, digits);
    PowMonotone(|digits|, MaxUnicodeDigits);
  }

  lemma {:induction false} PowMonotone(m: nat, n: nat)
    requires m <= n
    ensures Pow16(m) <= Pow16(n)
    decreases n
  {
    if m < n {
      PowMonotone(m, n - 1);
    }
  }

  /**
    The decoded text never has more characters than the text between the quotes, which
    is what the `s.len() - 2` reserved at src/parser.rs:77 counts when every character
    is one byte.
  */
  lemma {:induction false} DecodedNoLonger(t: string)
    ensures Decoded(t).Ok? ==> |Decoded(t).value| <= |t|
    decreases |t|, 1
  {
    if t == [] {
    } else if t[0] != '\\' {
      DecodedNoLonger(t[1..]);
    } else if |t| == 1 {
    } else if t[1] == '\\' || t[1] == '"' || t[1] == 'n' {
      DecodedNoLonger(t[2..]);
    } else if t[1] == 'u' {
      UnicodeEscapeNoLonger(0, MaxUnicodeDigits, t[2..]);
    }
  }

  lemma {:induction false} UnicodeEscapeNoLonger(v: nat, left: nat, t: string)
    ensures UnicodeEscape(v, left, t).Ok? ==> |UnicodeEscape(v, left, t).value| <= |t| + 1
    decreases |t|, 0
  {
    var k := HexRun(t, left);
    if k < |t| {
      DecodedNoLonger(t[k + 1..]);
    }
  }

  /** One character as a literal must spell it so that it decodes back (the inverse direction, not in the source). */
  function EscapedChar(c: char): string
  {
    if c == '\\' then "\\\\"
    else if c == '"' then "\\\""
    else if c == '\n' then "\\n"
    else [c]
  }

  /** Text spelled as the body of a quoted literal, escaping backslash, quote and newline. */
  function Escaped(s: string): string
  {
    if s == [] then [] else EscapedChar(s[0]) + Escaped(s[1..])
  }

  /** Decoding undoes escaping: `\\`, `\"` and `\n` decode to backslash, quote and newline. */
  lemma {:induction false} EscapedRoundTrip(s: string)
    ensures Decoded(Escaped(s)) == Ok(s)
  {
    if s != [] {
      EscapedRoundTrip(s[1..]);
      var e := EscapedChar(s[0]);
      var t := e + Escaped(s[1..]);
      if |e| == 2 {
        assert t[0] == '\\' && t[1] == e[1] && t[2..] == Escaped(s[1..]);
      } else {
        assert t[0] == s[0] && t[1..] == Escaped(s[1..]);
      }
      assert [s[0]] + s[1..] == s;
    }
  }

  /** The full decoder, quotes included, inverts escaping. */
  lemma QuotedRoundTrip(s: string)
    ensures Unescaped("\"" + Escaped(s) + "\"") == Ok(s)
  {
    var lit := "\"" + Escaped(s) + "\"";
    assert lit[1..|lit| - 1] == Escaped(s);
    EscapedRoundTrip(s);
  }

  // The error messages.

  /** The `X` format of Rust's `format!`: upper-case hexadecimal without leading zeros. */
  function UpperHex(n: nat): (h: string)
    ensures |h| >= 1 && AllHex(h)
    ensures n > 0 ==> h[0] != '0'
  {
    if n < 16 then [HexDigitChar(n)] else UpperHex(n / 16) + [HexDigitChar(n % 16)]
  }

  function HexDigitChar(d: nat): (c: char)
    requires d < 16
    ensures IsHexDigit(c) && HexDigitValue(c) == d
  {
    if d < 10 then ('0' as int + d) as char else ('A' as int + d - 10) as char
  }

  /** The text of the error the parser reports. */
  function Message(e: LexError): (m: string)
    ensures e.InvalidEscape? ==> |m| == 25 && m[22] == e.code && m[21] == '\\'
    ensures e.InvalidEscape? ==> m[..21] == "Invalid escape code '" && m[23..] == "'."
    ensures e.InvalidCodePoint? ==> |m| > 22 && m[..21] == "Invalid code point U+" && m[|m| - 1] == '.'
    ensures e.InvalidCodePoint? ==> AllHex(m[21..|m| - 1]) && AccumulateHex(0, m[21..|m| - 1]) == e.codepoint
    ensures e.InvalidCodePoint? && e.codepoint > 0 ==> m[21] != '0'
  {
    match e
    case InvalidEscape(c) => "Invalid escape code '\\" + [c] + "'."
    case InvalidCodePoint(cp) =>
      var m := "Invalid code point U+" + UpperHex(cp) + ".";
      assert m[21..|m| - 1] == UpperHex(cp);
      UpperHexRoundTrip(cp);
      m
  }

  lemma {:induction false} AccumulateHexAppend(v: nat, digits: string, c: char)
    requires AllHex(digits) && IsHexDigit(c)
    ensures AllHex(digits + [c])
    ensures AccumulateHex(v, digits + [c]) == AccumulateHex(v, digits) * 16 + HexDigitValue(c)
    decreases |digits|
  {
    if digits == [] {
      assert (digits + [c])[1..] == [];
    } else {
      assert (digits + [c])[1..] == digits[1..] + [c];
      AccumulateHexAppend(v * 16 + HexDigitValue(digits[0]), digits[1..], c);
    }
  }

  /** The hexadecimal number in an "Invalid code point" message reads back as the rejected value. */
  lemma {:induction false} UpperHexRoundTrip(n: nat)
    ensures AccumulateHex(0, UpperHex(n)) == n
  {
    if n < 16 {
      assert UpperHex(n)[1..] == [];
    } else {
      UpperHexRoundTrip(n / 16);
      AccumulateHexAppend(0, UpperHex(n / 16), HexDigitChar(n % 16));
    }
  }

  /** `\\`, `\"` and `\n` decode to backslash, double quote and newline, and decoding goes on after them. */
  lemma SimpleEscape(c: char, t: string)
    requires c == '\\' || c == '"' || c == 'n'
    ensures Decoded(['\\', c] + t) == Prepend([if c == 'n' then '\n' else c], Decoded(t))
  {
    assert (['\\', c] + t)[2..] == t;
  }

  /** The unit tests at src/parser.rs:185-201: quotes dropped, escaped quote and newline. */
  lemma SimpleEscapeTests()
    ensures Unescaped("\"\"") == Ok("")
    ensures Unescaped("\"x\\\"y\"") == Ok("x\"y")
    ensures Unescaped("\"\\n\"") == Ok("\n")
  {
    var a := "\"x\\\"y\"";
    assert a[1..|a| - 1] == "x" + (['\\', '"'] + "y");
    PlainPrefix("x", ['\\', '"'] + "y");
    SimpleEscape('"', "y");
    PlainTextUnchanged("y");
    assert ['"'] + "y" == "\"y" && "x" + "\"y" == "x\"y";
    var b := "\"\\n\"";
    assert b[1..|b| - 1] == ['\\', 'n'] + [];
    SimpleEscape('n', []);
    assert "\n" + [] == "\n";
  }

  lemma Value1F574()
    ensures AllHex("1f574") && AccumulateHex(0, "1f574") == 0x1F574
  {
    assert "1f574"[1..] == "f574" && "f574"[1..] == "574" && "574"[1..] == "74" && "74"[1..] == "4";
  }

  /** A code-point escape followed by plain text: the escape, then the text unchanged. */
  lemma UnicodeThenPlain(text: string)
    requires text != [] && !IsHexDigit(text[0]) && '\\' !in text
    ensures Unescaped("\"" + "\\u1f574" + text + "\"") == Ok("\U{1F574}" + text)
  {
    var body := "\\u" + "1f574" + text;
    var lit := "\"" + "\\u1f574" + text + "\"";
    assert lit[1..|lit| - 1] == body by {
      assert "\\u1f574" == "\\u" + "1f574";
      assert lit == "\"" + body + "\"";
    }
    assert Decoded(body) == Prepend([0x1F574 as char, text[0]], Decoded(text[1..])) by {
      Value1F574();
      UnicodeEscapeForm("1f574", text);
    }
    PlainTextUnchanged(text[1..]);
    assert [0x1F574 as char, text[0]] + text[1..] == "\U{1F574}" + text;
  }

  /** The unit test at src/parser.rs:209-213: a five-digit escape at the end of the literal. */
  lemma UnicodeAtEndTest()
    ensures Unescaped("\"\\u1f574\"") == Ok("\U{1F574}")
  {
    Value1F574();
    var a := "\"\\u1f574\"";
    assert a[1..|a| - 1] == "\\u" + "1f574" + "";
    UnicodeEscapeForm("1f574", "");
  }

  /** The unit test at src/parser.rs:215-219: a two-digit escape ended by a non-hex letter. */
  lemma ShortEscapeTest()
    ensures Unescaped("\"\\u0anewline\"") == Ok("\nnewline")
  {
    TwoDigitEscapeThenText("newline");
    assert "\"" + "\\u0a" + "newline" + "\"" == "\"\\u0anewline\"";
    assert [10 as char] + "newline" == "\nnewline";
  }

  /** `\u0a` followed by text that starts with a non-hex character and has no backslash. */
  lemma TwoDigitEscapeThenText(text: string)
    requires text != [] && !IsHexDigit(text[0]) && '\\' !in text
    ensures Unescaped("\"" + "\\u0a" + text + "\"") == Ok([10 as char] + text)
  {
    var body := "\\u" + "0a" + text;
    var lit := "\"" + "\\u0a" + text + "\"";
    assert lit[1..|lit| - 1] == body by {
      assert "\\u0a" == "\\u" + "0a";
      assert lit == "\"" + body + "\"";
    }
    assert Decoded(body) == Prepend([10 as char, text[0]], Decoded(text[1..])) by {
      Value0A();
      UnicodeEscapeForm("0a", text);
    }
    PlainTextUnchanged(text[1..]);
    assert [10 as char, text[0]] + text[1..] == [10 as char] + text;
  }

  lemma Value0A()
    ensures AllHex("0a") && AccumulateHex(0, "0a") == 10
  {
    assert "0a"[1..] == "a";
  }

  /** The first unit test at src/parser.rs:222-224: six digits, then a hex digit copied literally. */
  lemma SixDigitsThenHexTest()
    ensures Unescaped("\"\\u00000afg\"") == Ok("\nfg")
  {
    Value00000A();
    var a := "\"\\u00000afg\"";
    assert a[1..|a| - 1] == "\\u" + "00000a" + "fg";
    UnicodeEscapeForm("00000a", "fg");
    assert "fg"[1..] == "g";
    PlainTextUnchanged("g");
    assert [10 as char, 'f'] + "g" == "\nfg";
  }

  lemma Value00000A()
    ensures AllHex("00000a") && AccumulateHex(0, "00000a") == 10
  {
    assert "00000a"[1..] == "0000a" && "0000a"[1..] == "000a" && "000a"[1..] == "00a";
    assert "00a"[1..] == "0a" && "0a"[1..] == "a";
  }

  /** The second unit test at src/parser.rs:225-226: six digits, then a non-hex letter. */
  lemma SixDigitsThenLetterTest()
    ensures Unescaped("\"\\u0000afg\"") == Ok("\U{00AF}g")
  {
    Value0000AF();
    var b := "\"\\u0000afg\"";
    assert b[1..|b| - 1] == "\\u" + "0000af" + "g";
    UnicodeEscapeForm("0000af", "g");
    assert "g"[1..] == [];
    assert [0xAF as char, 'g'] + [] == "\U{00AF}g";
  }

  lemma Value0000AF()
    ensures AllHex("0000af") && AccumulateHex(0, "0000af") == 0xAF
  {
    assert "0000af"[1..] == "000af" && "000af"[1..] == "00af" && "00af"[1..] == "0af";
    assert "0af"[1..] == "af" && "af"[1..] == "f";
  }

  /** The first two examples of the doc comment at src/parser.rs:116-122: `\u` alone, and an escape ended by a letter. */
  lemma DocCommentShortExamples()
    ensures Unescaped("\"\\u\"") == Ok("\U{0000}")
    ensures Unescaped("\"\\u1f574z\"") == Ok("\U{1F574}z")
  {
    var a := "\"\\u\"";
    assert a[1..|a| - 1] == "\\u" + "" + "";
    UnicodeEscapeForm("", "");
    UnicodeThenPlain("z");
    assert "\"" + "\\u1f574" + "z" + "\"" == "\"\\u1f574z\"";
    assert "\U{1F574}" + "z" == "\U{1F574}z";
  }

  /**
    The third example of the doc comment at src/parser.rs:121: `\u1f5741` takes six digits,
    and 0x1F5741 is past U+10FFFF, so the code rejects it although the comment gives U+1F5741.
  */
  lemma DocCommentSixDigitExample()
    ensures Unescaped("\"\\u1f5741\"") == Err(InvalidCodePoint(0x1F5741))
  {
    var c := "\"\\u1f5741\"";
    assert c[1..|c| - 1] == "\\u" + "1f5741" + "";
    assert Decoded("\\u" + "1f5741" + "") == Err(InvalidCodePoint(0x1F5741)) by {
      Value1F5741();
      UnicodeEscapeForm("1f5741", "");
    }
  }

  lemma Value1F5741()
    ensures AllHex("1f5741") && AccumulateHex(0, "1f5741") == 0x1F5741
  {
    assert "1f5741"[1..] == "f5741" && "f5741"[1..] == "5741" && "5741"[1..] == "741";
    assert "741"[1..] == "41" && "41"[1..] == "1";
  }

  /** The last example of the doc comment at src/parser.rs:122: the seventh character is copied literally. */
  lemma DocCommentSeventhDigitExample()
    ensures Unescaped("\"\\u01f5741\"") == Ok("\U{1F574}1")
  {
    Value1F574();
    assert AccumulateHex(0, "01f574") == 0x1F574 by {
      assert "01f574"[1..] == "1f574";
    }
    var d := "\"\\u01f5741\"";
    assert d[1..|d| - 1] == "\\u" + "01f574" + "1";
    UnicodeEscapeForm("01f574", "1");
    assert "1"[1..] == [];
    assert [0x1F574 as char, '1'] + [] == "\U{1F574}1";
  }
}

=== FILE: wrappers.dfy ===
/** Option and Result, the shapes of Rust's `Option` and `Result` used across the model. */
module Wrappers {

  datatype Option<+T> = None | Some(value: T)

  datatype Result<+T, +E> = Ok(value: T) | Err(error: E) {
    predicate IsFailure() {
      Err?
    }

    function PropagateFailure<U>(): Result<U, E>
      requires Err?
    {
      Err(error)
    }

    function Extract(): T
      requires Ok?
    {
      value
    }
  }

  /** Puts `prefix` in front of a successful output; an error is passed on as it is. */
  function Prepend<T, E>(prefix: seq<T>, r: Result<seq<T>, E>): Result<seq<T>, E>
  {
    match r
    case Ok(s) => Ok(prefix + s)
    case Err(e) => Err(e)
  }

  /** Prepending nothing changes nothing. */
  lemma PrependNothing<T, E>(r: Result<seq<T>, E>)
    ensures Prepend([], r) == r
  {
    if r.Ok? {
      assert [] + r.value == r.value;
    }
  }

  /** Two prefixes put in front one after the other are their concatenation put in front once. */
  lemma PrependPrepend<T, E>(a: seq<T>, b: seq<T>, r: Result<seq<T>, E>)
    ensures Prepend(a, Prepend(b, r)) == Prepend(a + b, r)
  {
    if r.Ok? {
      assert a + (b + r.value) == (a + b) + r.value;
    }
  }
}
